=== FILE: README.md ===
# Mundipagg gateway adapter, modelled in Dafny

This project models `MundipaggGateway`, the ActiveMerchant adapter for the Mundipagg ONE
payment API (`lib/active_merchant/billing/gateways/mundipagg.rb`). It covers:

- **Scrubber**: the transcript scrubber `scrub`. These are three `gsub` substitutions, each
  replacing the greedy run of `\w` or `\d` characters after a fixed marker by `[FILTERED]`.
  `gsub` scans left to right and resumes after each match, and the model follows that.
- **Json** (with **Base**): a JSON value tree. Objects are ordered member lists. `Lookup`
  and `Put` behave like Ruby's `Hash#[]` and `Hash#[]=`: the last entry wins, and an
  existing key is replaced in place or a new key is appended.
- **Serializer**: `post_data`, i.e. `deep_transform_keys { camelize }`. It renames every
  object key at every depth, including inside arrays. `camelize` is given concretely for
  lower-case snake keys: the first character and each character after `_` are upper-cased,
  and the `_`s are dropped.
- **Requests**: the constant tables and `card_type`. It also covers the request builders
  `add_credit_card`, the live `add_invoice` and `add_transaction_information`, and the
  bodies that `purchase`/`authorize` and `capture`/`void` send.
- **Gateway**: `initialize`, the endpoint choice, the headers `ssl_post` adds, and `commit`.
  `commit` has three ways of obtaining the response document:
  - a parsed body;
  - the body of an HTTP error, via `response_error`;
  - `json_error` for an unparsable body.

  A response comes out only for a document that is a JSON object whose AVS and CVV codes
  are absent, blank or strings. Reading the codes with `document["..."]` raises for nil,
  booleans, integers and arrays. The `AVSResult` and `CVVResult` constructors raise on a
  code that is neither blank nor a string. A string document answers a substring, but then
  the `Response` constructor fails on it. This module also holds the public operations.
- **Verify**: `verify`. It is an authorize step and then a void step, combined the way
  `MultiResponse.run(:use_first_response)` combines them.

What the adapter calls but does not define is handled in one of three ways.

The `Gateway.Env` record holds these as parameters:
- the transport;
- `JSON.parse`;
- `amount(money)`;
- `response_error` and `json_error`;
- the `success_from`/`message_from`/`authorization_from` extraction rules.

These are modelled concretely:
- `requires!` is a `MissingParameter` failure;
- `currency(money)` is the default currency `BRL`;
- the constructors of `Response`, `AVSResult` and `CVVResult` are modelled only by the
  failures they raise (see "## Left out").

`MultiResponse` is the `Verify.Policy` parameter.

`Gateway.StubExtractors` gives the extraction rules as the source defines them: empty
methods returning nil.

Several things in the source look unintended. They are modelled as written, and the
lemmas make each visible:

- `card_type` looks the brand up in `CREDIT_CARD_TRANSACTION_STATUS`, not in
  `CREDIT_CARD_BRANDS`. The two key sets are disjoint, so `credit_card_brand` is nil for
  every supported card (`Requests.CardTypeNilForSupportedBrands`).
- Two methods are named `add_invoice`. The second (lines 154-157) replaces the first
  (147-152), so no order id is sent (`Requests.SaleBody` lists every member).
- `STANDARD_ERROR_CODE_MAPPING` is never consulted. `error_code_from` has an empty body, so
  every response has a nil error code (`Gateway.ErrorCodeMappingUnused`). A reading of the
  gateway as mapping refusal reasons through that table does not match the code; the model
  follows the code.
- The scrub patterns target form-encoded fields named `card_number=` and `card_cvv=`.
  `post_data` sends a JSON body whose card fields are `CreditNumber` and `CardCvv`, so those
  values are not touched by `scrub` (`Scrubber.ScrubMissesJsonCardFields`).
- Every request carries the merchant key in a `MerchantKey` header (lines 194-199), and no
  `scrub` pattern covers that header (`Scrubber.ScrubMissesMerchantKeyHeader`).
- With the stub extraction rules, every response is a failure
  (`Gateway.StubbedCommitAlwaysFails`). As a result, when `MultiResponse` stops after a
  failed step, the void step of `verify` never runs (`Verify.StubbedVerifyNeverVoids`).
- The void step of `verify` (line 96) passes `r.params`, a Hash, where `void` expects the
  transaction parameters. `add_transaction_information` then calls `params.request_key`
  (line 114), which a Hash does not define, so the step raises `NoMethodError` whenever it
  runs. Once the extraction rules report success, a successful authorize makes `verify`
  raise (`Verify.VoidOnResponseParams`, `Verify.VerifyWithGatewayVoid`).

## Model

| member | source | states |
|---|---|---|
| Scrubber.RunLength | lib/active_merchant/billing/gateways/mundipagg.rb:106-108 | What a greedy `\w+`/`\d+` consumes. Every counted character is in the class, and the first character after the run is not. |
| Scrubber.SubstituteReplacesMaximalRun | lib/active_merchant/billing/gateways/mundipagg.rb:106-108 | At a match, the marker is kept and exactly the maximal class run is replaced by `[FILTERED]`. Scanning resumes right after the run. |
| Scrubber.SubstituteCopiesNonMatch | lib/active_merchant/billing/gateways/mundipagg.rb:106-108 | Where no match starts, the character is copied unchanged and the scan goes on from the next character. |
| Scrubber.NonMarkerStartsNoMatch | lib/active_merchant/billing/gateways/mundipagg.rb:106-108 | No match starts at a character other than the marker's first. |
| Scrubber.SubstituteKeepsPadding | test/unit/gateways/mundipagg_test.rb:106-107 | `=` padding after a replaced run survives, for any rule whose class excludes `=`. |
| Scrubber.SubstituteCopiesEquals | lib/active_merchant/billing/gateways/mundipagg.rb:106-108 | A `=` is copied unchanged by a rule whose marker does not start with `=`. |
| Scrubber.PaddingSplits | lib/active_merchant/billing/gateways/mundipagg.rb:106-108 | `==` in front of a text is two single `=` characters. |
| Scrubber.AuthorizationKeepsBase64Padding | test/unit/gateways/mundipagg_test.rb:141-142 | `Authorization: Basic <credential>==` becomes `Authorization: Basic [FILTERED]==`. |
| Scrubber.SubstituteIsClean | lib/active_merchant/billing/gateways/mundipagg.rb:106-108 | After one substitution, no position matches that rule's pattern. |
| Scrubber.SubstitutePreservesClean | lib/active_merchant/billing/gateways/mundipagg.rb:105-108 | A later substitution never creates a match for an earlier rule, because `[FILTERED]` starts with `[`. |
| Scrubber.Substitute | lib/active_merchant/billing/gateways/mundipagg.rb:106-108 | One `gsub`. A text with no match is returned unchanged. Its behaviour at a match and elsewhere is stated by `SubstituteReplacesMaximalRun` and `SubstituteCopiesNonMatch`. |
| Scrubber.Scrub | lib/active_merchant/billing/gateways/mundipagg.rb:104-109 | `scrub`: the scrubbed transcript has no `Authorization: Basic ` followed by a word character, and no `card_number=` or `card_cvv=` followed by a digit. |
| Scrubber.ScrubKeepsClean | lib/active_merchant/billing/gateways/mundipagg.rb:104-109 | A transcript with nothing to redact is returned unchanged. |
| Scrubber.ScrubIdempotent | lib/active_merchant/billing/gateways/mundipagg.rb:104-109 | Scrubbing twice is the same as scrubbing once. |
| Scrubber.CleanWithoutMarkerChar | lib/active_merchant/billing/gateways/mundipagg.rb:106-108 | A text that lacks any one character of a rule's marker holds no match of that rule. |
| Scrubber.ScrubLeavesMarkerFree | lib/active_merchant/billing/gateways/mundipagg.rb:104-109 | A transcript with no `_` and lacking a character of `Authorization: Basic ` is returned unchanged. |
| Scrubber.ScrubMissesJsonCardFields | lib/active_merchant/billing/gateways/mundipagg.rb:104-109 | The JSON members `"CreditNumber":"<digits>"` and `"CardCvv":"<digits>"` come out of `scrub` unchanged. |
| Scrubber.ScrubMissesJsonMember | lib/active_merchant/billing/gateways/mundipagg.rb:104-109 | Any JSON member whose key part has no `_` and no space, with a digit value, comes out of `scrub` unchanged. |
| Scrubber.ScrubMissesMerchantKeyHeader | lib/active_merchant/billing/gateways/mundipagg.rb:194-199 | The `MerchantKey` header with a GUID-shaped key comes out of `scrub` unchanged. |
| Json.Lookup | lib/active_merchant/billing/gateways/mundipagg.rb:144 | `Hash#[]`: nil exactly when the key is absent; otherwise the value of the last entry with that key. |
| Json.Put | lib/active_merchant/billing/gateways/mundipagg.rb:128-140 | `Hash#[]=`: the key now maps to the value and every other key keeps its value. An existing key keeps its position; a new key is appended. |
| Serializer.Camelize | lib/active_merchant/billing/gateways/mundipagg.rb:206 | `key.to_s.camelize`: the result is camel-case (no underscore, no lower-case start) and no longer than the key. |
| Serializer.CamelizeFixedPoints | lib/active_merchant/billing/gateways/mundipagg.rb:206 | `camelize` leaves a key unchanged exactly when the key has no underscore and does not start with a lower-case letter. |
| Serializer.CamelizeIdempotent | lib/active_merchant/billing/gateways/mundipagg.rb:206 | Every camelized key is camel-case, so camelizing twice changes nothing. |
| Serializer.CamelizeSnakeKey | lib/active_merchant/billing/gateways/mundipagg.rb:206 | `camelize` of `w1_w2_..._wn` is `W1W2...Wn`, each word capitalized. |
| Serializer.RenameKeys | lib/active_merchant/billing/gateways/mundipagg.rb:206 | `deep_transform_keys`: the result is the value with every key, at every depth and inside arrays, replaced by its renaming, and nothing else changed. |
| Serializer.PostData | lib/active_merchant/billing/gateways/mundipagg.rb:205-207 | `post_data`: the parameters with every key camelized at every depth, so every key of the body is camel-case. |
| Serializer.RenameKeysEveryKey | lib/active_merchant/billing/gateways/mundipagg.rb:206 | After renaming, every key at every depth satisfies a property exactly when every original key satisfied its preimage. |
| Serializer.RenameKeysCompose | lib/active_merchant/billing/gateways/mundipagg.rb:206 | Renaming by `f` and then by `g` is renaming once by `g . f`. |
| Serializer.RenameKeysKeepsShape | lib/active_merchant/billing/gateways/mundipagg.rb:206 | Renaming keeps every scalar, array length and member order. At every depth, inside arrays too, each member's key becomes the renamed original key. |
| Serializer.RenamedIsRenameKeys | lib/active_merchant/billing/gateways/mundipagg.rb:206 | Any value with the original's shape and every key renamed at every depth is the result of the key transform. |
| Serializer.PostDataCamelizesEveryKey | lib/active_merchant/billing/gateways/mundipagg.rb:205-207 | Every object key in the posted body is camel-case, inside nested objects and arrays too. |
| Serializer.PostDataIdempotent | lib/active_merchant/billing/gateways/mundipagg.rb:205-207 | Applying the key transform to an already transformed body changes nothing. |
| Serializer.PostDataKeepsShape | lib/active_merchant/billing/gateways/mundipagg.rb:205-207 | The posted body is the parameters with every key, at every depth, replaced by its `camelize`, and nothing else changed. |
| Requests.CardType | lib/active_merchant/billing/gateways/mundipagg.rb:143-145 | The result is non-nil exactly when a brand is given and is a key of `CREDIT_CARD_TRANSACTION_STATUS`. In that case it is that table's value. |
| Requests.CardTypeNilForSupportedBrands | lib/active_merchant/billing/gateways/mundipagg.rb:7-18 | For a nil brand or any supported brand (a key of `CREDIT_CARD_BRANDS`), `card_type` is nil. |
| Requests.CreditCardFields | lib/active_merchant/billing/gateways/mundipagg.rb:126-133 | The card object has exactly six members: brand via `card_type`, number, expiry month and year, holder name, and security code. |
| Requests.AddCreditCard | lib/active_merchant/billing/gateways/mundipagg.rb:123-141 | Fails with a missing `operation` exactly when the options lack it. Otherwise the collection key holds one transaction with the card and the operation, and every other key is unchanged. |
| Requests.SaleTransaction | lib/active_merchant/billing/gateways/mundipagg.rb:136-138 | The transaction element has exactly two members, the card object and the operation name. |
| Requests.AddInvoice | lib/active_merchant/billing/gateways/mundipagg.rb:154-157 | Sets `amount` to `amount(money)` and `currency` to the options' currency, or else `BRL`. Every other key is unchanged. |
| Requests.AddTransactionInformation | lib/active_merchant/billing/gateways/mundipagg.rb:113-121 | Sets three keys and leaves every other key unchanged: `request_key` (empty string when absent), a one-element collection, and `order_key`. |
| Requests.ReferenceTransaction | lib/active_merchant/billing/gateways/mundipagg.rb:115-119 | The collection element has exactly three members: amount in cents, transaction key and transaction reference. |
| Requests.SaleBody | lib/active_merchant/billing/gateways/mundipagg.rb:61-76 | The `purchase`/`authorize` body is exactly three members in order: a one-element collection with the card and operation, `amount`, and `currency` (default `BRL`). No order id. |
| Requests.SaleBodyLayout | lib/active_merchant/billing/gateways/mundipagg.rb:61-76 | Read back through `Hash#[]`, the sale body holds the amount and the currency, `BRL` when none is named. |
| Requests.SaleBodiesDifferOnlyInOperation | lib/active_merchant/billing/gateways/mundipagg.rb:61-76 | `purchase` and `authorize` bodies are equal except for the operation name, `AuthAndCapture` versus `AuthOnly`. |
| Requests.ReferenceBody | lib/active_merchant/billing/gateways/mundipagg.rb:80-88 | The capture/void body is exactly three members in order: the request key (default empty), a one-element collection and the order key. |
| Requests.ReferenceBodyLayout | lib/active_merchant/billing/gateways/mundipagg.rb:80-88 | Read back through `Hash#[]`, the reference body holds the request key (empty when absent), the one-element collection and the order key. |
| Requests.OperationNamesMatchTable | lib/active_merchant/billing/gateways/mundipagg.rb:20-23 | The operation names that `purchase` and `authorize` write are the values of `CREDIT_CARD_OPERATION`. |
| Gateway.Init | lib/active_merchant/billing/gateways/mundipagg.rb:55-59 | Construction fails exactly when no merchant key is given. Otherwise the key and the test flag are stored. |
| Gateway.Endpoint | lib/active_merchant/billing/gateways/mundipagg.rb:4-5 | The URL is the sandbox URL exactly in test mode, and the live URL otherwise. |
| Gateway.Headers | lib/active_merchant/billing/gateways/mundipagg.rb:194-199 | Exactly three headers: the merchant key, and JSON for `Accept` and `Content-Type`. |
| Gateway.Outgoing | lib/active_merchant/billing/gateways/mundipagg.rb:160-164 | The posted URL is the endpoint followed by the action, chosen by test mode. The body is the parameters with every key, at every depth, replaced by its `camelize`, and nothing else changed. The merchant key header is set. |
| Gateway.ErrorCodeFrom | lib/active_merchant/billing/gateways/mundipagg.rb:209-213 | No error code for any document, whether the response succeeded or not. |
| Gateway.ErrorCodeMappingUnused | lib/active_merchant/billing/gateways/mundipagg.rb:51-53 | A document whose refusal reason is a key of the mapping still gets no error code. |
| Gateway.BuildResponse | lib/active_merchant/billing/gateways/mundipagg.rb:173-182 | The response carries the document as its params, the three extraction results, the AVS/CVV codes read from the document, the test flag, and no error code. |
| Gateway.ResponseDocument | lib/active_merchant/billing/gateways/mundipagg.rb:163-171 | The response document is one of three things: the parsed body; `json_error` of the raw body when parsing fails; or `response_error` of an HTTP error's body. Any other transport failure is not rescued. |
| Gateway.OccursInPosition | lib/active_merchant/billing/gateways/mundipagg.rb:178-179 | The substring test used for `String#[]` holds exactly when the key starts at some position of the string. |
| Gateway.IndexByString | lib/active_merchant/billing/gateways/mundipagg.rb:178-179 | `document["..."]` per kind of document. A Hash gives its lookup. A String gives the key when the key occurs in it, and nil otherwise. Nil and booleans raise `NoMethodError`; integers and arrays raise `TypeError`. |
| Gateway.ResponseFrom | lib/active_merchant/billing/gateways/mundipagg.rb:173-182 | A response comes out exactly for an object document whose AVS and CVV codes are absent, blank or strings. It is the assembled response, with the codes that `document["..."]` reads. A code that cannot be upcased fails in `AVSResult`/`CVVResult`. A string document fails in the `Response` constructor. Other non-objects fail at the AVS lookup. |
| Gateway.Commit | lib/active_merchant/billing/gateways/mundipagg.rb:159-183 | A transport failure other than `ResponseError` is raised as is. Otherwise the outcome is `ResponseFrom` of the document obtained from the posted request. A response has that document, an object, as its params, is built from it, carries the gateway's test flag and has a nil error code. A missing parameter never arises. |
| Gateway.StubbedCommitAlwaysFails | lib/active_merchant/billing/gateways/mundipagg.rb:185-192 | With the empty extraction methods, every response is unsuccessful, with no message, authorization or error code. |
| Gateway.Purchase | lib/active_merchant/billing/gateways/mundipagg.rb:61-68 | Posts to `/Sale/` exactly three members: a one-element collection with the card and `AuthAndCapture`, the amount, and the currency (default `BRL`). The operation is always present, so `requires!` never fails. |
| Gateway.Authorize | lib/active_merchant/billing/gateways/mundipagg.rb:70-78 | Posts to `/Sale/` the same three members with `AuthOnly`. `requires!` never fails. |
| Gateway.Capture | lib/active_merchant/billing/gateways/mundipagg.rb:80-84 | Posts to `/Sale/Capture/` exactly three members: the request key (empty when absent), a one-element collection and the order key. No missing-parameter failure. |
| Gateway.Void | lib/active_merchant/billing/gateways/mundipagg.rb:85-89 | Posts the same three members to `/Sale/Cancel/`. No missing-parameter failure. |
| Gateway.Refund | lib/active_merchant/billing/gateways/mundipagg.rb:90 | `refund`, the alias of `void`: the same three members to `/Sale/Cancel/`, with no missing-parameter failure. |
| Gateway.PurchaseAndAuthorizeShareEndpoint | lib/active_merchant/billing/gateways/mundipagg.rb:61-78 | `purchase` and `authorize` post to the same URL with the same headers. |
| Gateway.CaptureAndVoidDifferOnlyInPath | lib/active_merchant/billing/gateways/mundipagg.rb:80-90 | `capture` and `void` send identical bodies and headers to `/Sale/Capture/` and `/Sale/Cancel/`, and `refund` is `void`. |
| Verify.VerifyMoney | lib/active_merchant/billing/gateways/mundipagg.rb:93 | The amount is the given money, or 100 when none is given. |
| Verify.Verify | lib/active_merchant/billing/gateways/mundipagg.rb:92-98 | A raised authorize ends `verify` with that failure. Otherwise the outcome is the authorize response and comes first among the step responses. A void that ran got the same amount and the authorize response's params. A completed authorize gives an outcome unless the void raises and that failure propagates. A completed void that ran (after a successful authorize, or under a policy that voids after a failure) is recorded as the second of exactly two responses. A propagated void failure is the result. |
| Verify.VerifyOutcomeIndependentOfVoid | lib/active_merchant/billing/gateways/mundipagg.rb:96 | What the void step returns never changes the outcome (`:ignore_result`). |
| Verify.VerifyAuthorizeFailureSkipsVoid | lib/active_merchant/billing/gateways/mundipagg.rb:94-96 | When authorize raises, the void step plays no part in the result. |
| Verify.FailedAuthorizeSkipsVoid | lib/active_merchant/billing/gateways/mundipagg.rb:94-96 | When the authorize step never succeeds and `MultiResponse` stops after a failed step, only one response is recorded and the outcome is a failure. |
| Verify.StubbedVerifyNeverVoids | lib/active_merchant/billing/gateways/mundipagg.rb:92-98 | With the empty extraction methods and `MultiResponse` stopping after a failed step, only the authorize step runs, and it fails. |
| Verify.VoidOnResponseParams | lib/active_merchant/billing/gateways/mundipagg.rb:96 | The void step as written raises `NoMethodError` for `request_key`, whatever the params. |
| Verify.VerifyWithGatewayVoid | lib/active_merchant/billing/gateways/mundipagg.rb:92-98 | With that void step, `verify` raises exactly when authorize raises or succeeds. A declined authorize is the sole response. |

## Left out

- Transport: `ssl_post` and the HTTP layer behind it are network I/O. They are the
  `transport` parameter of `Gateway.Env`. Only the headers the adapter adds are modelled.
- `JSON.parse` and `to_json` are library code. Parsing is the `parse` parameter, with nil
  for a parser error. The request body is kept as a `Json.Value`, before encoding.
- `amount(money)`, `response_error`, `json_error` and the extraction rules are inherited or
  stubbed. They are parameters. `currency(money)` is modelled as the default currency `BRL`,
  which is its value for integer money.
- `MultiResponse` is not part of this model. Two things are a `Verify.Policy` parameter:
  - whether a step runs after a failed step;
  - whether a failure raised by the ignored void step propagates.

  `Verify.Verify` states what holds under every policy.
- `AVSResult` and `CVVResult` are not part of this model. The response keeps the raw codes
  read from the document, and the code tables are not modelled. `Gateway.ResponseFrom`
  relies on one fact about their constructors, the one ActiveMerchant's `initialize`
  methods show: each upcases a code that is not blank. So a code that is `true`, a number,
  or a non-empty array or object raises `NoMethodError`.
- Requests.AddCreditCard: `requires!` checks that the key is present, while the model
  treats a missing key and a nil value alike.
- Gateway.Init: the same presence-versus-nil difference applies to the merchant key.
- The first `add_invoice` (lines 147-152) is dead code replaced by the second definition.
  It is not modelled, and `order_id` is never sent.
- Serializer.CamelizeSnakeKey and the rest of `Serializer` model ActiveSupport's `camelize`
  only for lower-case snake keys. Acronym inflections and the `/` to `::` rule are not
  modelled, and neither is the lower-casing `camelize` applies to the rest of a word.
- Serializer.PostDataKeepsShape: two keys that camelize to the same name both stay in
  the member list. A Ruby hash would merge them. No body built by this adapter has such a
  collision.
- JSON numbers are integers. Money is an integer amount, and a nil `money` is not modelled.
- `verify` stores `options[:money]` into the caller's hash, and `purchase`/`authorize`
  store `options[:operation]` the same way. These mutations are visible to the caller and
  to the void step's options. The model passes the updated options value explicitly and
  does not model aliasing.
- `Response` is not part of this model. `Gateway.ResponseFrom` relies on one fact about its
  constructor, the one ActiveMerchant's `Response#initialize` shows: it calls
  `stringify_keys` on the params, so a String document raises `NoMethodError` there.
- A JSON float document would raise `NoMethodError` at `document["..."]`. JSON numbers are
  integers here, so that case is not modelled.
- `supports_scrubbing?`, `supported_countries`, `homepage_url`, `display_name` and
  `money_format` are declarative metadata with no behaviour here.
- `test/unit/integrations/world_pay_module_test.rb` exercises `WorldPay.service_url`,
  which is not part of this model.
- The test file's expectations that the code does not implement are not modelled: an
  authorization id, a `card_declined` error code, and capture/refund/void tests that use
  undefined variables or are empty. The fixtures are responses of a different gateway.

=== FILE: base.dfy ===
/** Small failure-carrying datatypes shared by every module of the model.
    `Option` stands for Ruby's `nil`-or-value; `Result` for a value or a raised error. */
module Base {

  datatype Option<+T> = None | Some(value: T) {
    /** The value, or `default` when absent (Ruby's `x || default` on a non-boolean). */
    function GetOr(default: T): T {
      match this
      case Some(v) => v
      case None => default
    }
  }

  datatype Result<+T, +E> = Ok(value: T) | Err(error: E)

  /** The errors that leave a gateway call as Ruby exceptions: a parameter `requires!` finds
      missing, a transport failure that is not an HTTP error response, a method called on
      an object that does not define it (`NoMethodError`), or an argument of the wrong type
      (`TypeError`, no implicit conversion of `from` into `into`). */
  datatype Failure =
    | MissingParameter(name: string)
    | ConnectionFailed(reason: string)
    | UndefinedMethod(name: string)
    | NoImplicitConversion(from: string, into: string)
}

=== FILE: gateway.dfy ===
/** `MundipaggGateway`: configuration, `commit` (endpoint choice, the three ways a response
    document is obtained, response assembly) and the public operations built on it. */
module Gateway {
  import opened Base
  import opened Json
  import opened Serializer
  import opened Requests

  const TestUrl: string := "https://sandbox.mundipaggone.com"
  const LiveUrl: string := "https://transactionv2.mundipaggone.com"

  const SalePath: string := "/Sale/"
  const CapturePath: string := "/Sale/Capture/"
  const CancelPath: string := "/Sale/Cancel/"

  /** The gateway instance: the merchant key and the test-mode flag, fixed at construction. */
  datatype Config = Config(merchantKey: string, test: bool)

  /** `initialize(options)`: the merchant key is required. */
  function Init(merchantKey: Option<string>, test: bool): (r: Result<Config, Failure>)
    ensures r.Err? <==> merchantKey.None?
    ensures r.Err? ==> r.error == MissingParameter("merchant_key")
    ensures r.Ok? ==> r.value.merchantKey == merchantKey.value && r.value.test == test
  {
    match merchantKey
    case None => Err(MissingParameter("merchant_key"))
    case Some(key) => Ok(Config(key, test))
  }

  /** What `ssl_post` is given: the full URL, the body (before `to_json`) and the headers. */
  datatype HttpRequest = HttpRequest(url: string, body: Value, headers: seq<(string, string)>)

  /** What the transport hands back: a body, an HTTP error carrying a body (`ResponseError`),
      or any other failure, which is not rescued. */
  datatype Exchange = Received(body: string) | ResponseError(body: string) | ConnectionError(reason: string)

  /** The backend-specific extraction rules `success_from`, `message_from` and
      `authorization_from`. */
  datatype Extractors = Extractors(
    success: Value -> bool,
    message: Value -> Option<string>,
    authorization: Value -> Option<string>)

  /** The source's own extraction rules: all three methods have empty bodies and return nil. */
  const StubExtractors: Extractors := Extractors(_ => false, _ => None, _ => None)

  ghost predicate IsStub(extract: Extractors) {
    forall document: Value ::
      !extract.success(document) && extract.message(document).None? && extract.authorization(document).None?
  }

  /** Collaborators the gateway calls but does not define: the inherited `amount` formatter,
      the transport behind `ssl_post`, `JSON.parse` (nil on a parser error), the inherited
      `response_error` and `json_error`, and the extraction rules. */
  datatype Env = Env(
    amount: int -> Value,
    transport: HttpRequest -> Exchange,
    parse: string -> Option<Value>,
    responseError: string -> Value,
    jsonError: string -> Value,
    extract: Extractors)

  /** The shared error taxonomy entry the gateway declares a mapping to. */
  datatype StandardErrorCode = CardDeclined

  /** `STANDARD_ERROR_CODE_MAPPING`. */
  const StandardErrorCodeMapping: seq<(string, StandardErrorCode)> := [("card_declined", CardDeclined)]

  /** The `Response` built by `commit`. AVS and CVV results are kept as the raw codes they are
      constructed from. */
  datatype Response = Response(
    success: bool,
    message: Option<string>,
    params: Value,
    authorization: Option<string>,
    avsCode: Option<Value>,
    cvvCode: Option<Value>,
    test: bool,
    errorCode: Option<StandardErrorCode>)

  /** `test? ? test_url : live_url`. */
  function Endpoint(config: Config): (url: string)
    ensures url == TestUrl || url == LiveUrl
    ensures url == TestUrl <==> config.test
  {
    if config.test then TestUrl else LiveUrl
  }

  /** The headers `ssl_post` adds to the empty default header hash. */
  function Headers(config: Config): (headers: seq<(string, string)>)
    ensures Lookup(headers, "MerchantKey") == Some(config.merchantKey)
    ensures Lookup(headers, "Accept") == Some("application/json")
    ensures Lookup(headers, "Content-Type") == Some("application/json")
    ensures |headers| == 3
  {
    var headers := [("MerchantKey", config.merchantKey),
                    ("Accept", "application/json"),
                    ("Content-Type", "application/json")];
    LookupAt(headers, 0);
    LookupAt(headers, 1);
    LookupAt(headers, 2);
    headers
  }

  /** The request `commit(action, parameters)` hands to the transport. */
  function Outgoing(config: Config, action: string, parameters: Value): (request: HttpRequest)
    ensures request.url == TestUrl + action || request.url == LiveUrl + action
    ensures config.test <==> request.url == TestUrl + action
    ensures EveryKey(request.body, IsCamel)
    ensures Renamed(request.body, parameters, Camelize)
    ensures SameShape(request.body, parameters)
    ensures Lookup(request.headers, "MerchantKey") == Some(config.merchantKey)
  {
    PostDataCamelizesEveryKey(parameters);
    PostDataKeepsShape(parameters);
    HttpRequest(Endpoint(config) + action, PostData(parameters), Headers(config))
  }

  /** `error_code_from(response)`: the lookup is a TODO, so whatever the document and whether
      or not the response succeeded, no error code is produced. */
  function ErrorCodeFrom(extract: Extractors, document: Value): (r: Option<StandardErrorCode>)
    ensures r == None
  {
    if !extract.success(document) then None else None
  }

  /** `Response.new(...)` at the end of `commit`, from the response document. */
  function BuildResponse(config: Config, extract: Extractors, document: Value): (r: Response)
    ensures r.params == document
    ensures r.success == extract.success(document)
    ensures r.message == extract.message(document)
    ensures r.authorization == extract.authorization(document)
    ensures r.avsCode == Field(document, "some_avs_response_key")
    ensures r.cvvCode == Field(document, "some_cvv_response_key")
    ensures r.test == config.test
    ensures r.errorCode.None?
  {
    Response(
      extract.success(document),
      extract.message(document),
      document,
      extract.authorization(document),
      Field(document, "some_avs_response_key"),
      Field(document, "some_cvv_response_key"),
      config.test,
      ErrorCodeFrom(extract, document))
  }

  /** The `begin ... rescue ... end` of `commit`: which document the response is built from. */
  function ResponseDocument(env: Env, exchange: Exchange): (r: Result<Value, Failure>)
    ensures r.Err? <==> exchange.ConnectionError?
    ensures r.Err? ==> r.error == ConnectionFailed(exchange.reason)
    ensures exchange.Received? && env.parse(exchange.body).Some? ==> r == Ok(env.parse(exchange.body).value)
    ensures exchange.Received? && env.parse(exchange.body).None? ==> r == Ok(env.jsonError(exchange.body))
    ensures exchange.ResponseError? ==> r == Ok(env.responseError(exchange.body))
  {
    match exchange
    case Received(body) =>
      (match env.parse(body)
       case Some(document) => Ok(document)
       case None => Ok(env.jsonError(body)))
    case ResponseError(body) => Ok(env.responseError(body))
    case ConnectionError(reason) => Err(ConnectionFailed(reason))
  }

  /** `key` occurs in `s` as a contiguous substring. */
  predicate OccursIn(key: string, s: string)
    decreases |s|
  {
    |key| <= |s| && (s[..|key|] == key || OccursIn(key, s[1..]))
  }

  /** `key` starts at position `i` of `s`. */
  predicate OccursAt(key: string, s: string, i: int) {
    0 <= i && i + |key| <= |s| && s[i..i + |key|] == key
  }

  /** `OccursIn` holds exactly when `key` starts at some position of `s`. */
  lemma {:induction false} OccursInPosition(key: string, s: string)
    ensures OccursIn(key, s) <==> exists i :: OccursAt(key, s, i)
    decreases |s|
  {
    if |key| > |s| {
      assert forall i :: !OccursAt(key, s, i);
    } else if s[..|key|] == key {
      assert OccursAt(key, s, 0);
    } else {
      assert !OccursAt(key, s, 0);
      OccursInPosition(key, s[1..]);
      if OccursIn(key, s[1..]) {
        var j :| OccursAt(key, s[1..], j);
        assert s[j + 1..j + 1 + |key|] == s[1..][j..j + |key|];
        assert OccursAt(key, s, j + 1);
      }
      forall i | OccursAt(key, s, i)
        ensures OccursAt(key, s[1..], i - 1)
      {
        assert s[1..][i - 1..i - 1 + |key|] == s[i..i + |key|];
      }
    }
  }

  /** `document[key]` with a String key, as Ruby evaluates it on each kind of parsed JSON: a
      Hash looks the key up; a String answers the key itself when it occurs in the string and
      nil otherwise; an Array or an Integer raises `TypeError`; nil, `true` and `false` do not
      define `[]`. */
  function IndexByString(document: Value, key: string): (r: Result<Option<Value>, Failure>)
    ensures r.Ok? <==> document.Object? || document.Str?
    ensures document.Object? ==> r == Ok(Field(document, key))
    ensures document.Str? ==> r.Ok? && (r.value.Some? ==> r.value.value == Str(key))
    ensures document.Str? ==> (r.value.Some? <==> exists i :: OccursAt(key, document.s, i))
    ensures document.Null? || document.Bool? ==> r == Err(UndefinedMethod("[]"))
    ensures document.Number? || document.Array? ==> r == Err(NoImplicitConversion("String", "Integer"))
  {
    match document
    case Object(_) => Ok(Field(document, key))
    case Str(s) =>
      OccursInPosition(key, s);
      Ok(if OccursIn(key, s) then Some(Str(key)) else None)
    case Number(_) => Err(NoImplicitConversion("String", "Integer"))
    case Array(_) => Err(NoImplicitConversion("String", "Integer"))
    case _ => Err(UndefinedMethod("[]"))
  }

  /** Whether `AVSResult.new` and `CVVResult.new` accept a code read from the document. Both
      upcase any code that is not blank, which only a String can do; nil, `false`, an empty
      array or object and a blank string are blank and give no code. */
  predicate Upcasable(code: Option<Value>) {
    match code
    case None => true
    case Some(v) =>
      || v.Null? || v == Bool(false) || v.Str?
      || (v.Array? && |v.items| == 0) || (v.Object? && |v.members| == 0)
  }

  /** The `Response.new(...)` call that ends `commit`. Its arguments read the AVS code with
      `document[...]` and hand it to `AVSResult.new`, then do the same for the CVV code; then
      the `Response` constructor calls `stringify_keys` on the params, which only a Hash
      defines. So a response comes out exactly for an object document whose two codes are
      absent, blank or strings, and it is the one `BuildResponse` assembles. */
  function ResponseFrom(config: Config, extract: Extractors, document: Value): (r: Result<Response, Failure>)
    ensures r.Ok? <==>
              && document.Object?
              && Upcasable(Field(document, "some_avs_response_key"))
              && Upcasable(Field(document, "some_cvv_response_key"))
    ensures r.Ok? ==> r.value == BuildResponse(config, extract, document)
    ensures r.Ok? ==> Ok(r.value.avsCode) == IndexByString(document, "some_avs_response_key")
    ensures r.Ok? ==> Ok(r.value.cvvCode) == IndexByString(document, "some_cvv_response_key")
    ensures document.Object? && !Upcasable(Field(document, "some_avs_response_key")) ==>
              r == Err(UndefinedMethod("upcase"))
    ensures document.Object? && !Upcasable(Field(document, "some_cvv_response_key")) ==>
              r == Err(UndefinedMethod("upcase"))
    ensures document.Str? ==> r == Err(UndefinedMethod("stringify_keys"))
    ensures !document.Object? && !document.Str? ==>
              r == Err(IndexByString(document, "some_avs_response_key").error)
  {
    match IndexByString(document, "some_avs_response_key")
    case Err(e) => Err(e)
    case Ok(avs) =>
      if !Upcasable(avs) then Err(UndefinedMethod("upcase"))
      else
        match IndexByString(document, "some_cvv_response_key")
        case Err(e) => Err(e)
        case Ok(cvv) =>
          if !Upcasable(cvv) then Err(UndefinedMethod("upcase"))
          else if document.Object? then Ok(BuildResponse(config, extract, document))
          else Err(UndefinedMethod("stringify_keys"))
  }

  /** `commit(action, parameters)`. */
  function Commit(config: Config, env: Env, action: string, parameters: Value): (r: Result<Response, Failure>)
    ensures var exchange := env.transport(Outgoing(config, action, parameters));
            exchange.ConnectionError? ==> r == Err(ConnectionFailed(exchange.reason))
    ensures var document := ResponseDocument(env, env.transport(Outgoing(config, action, parameters)));
            document.Ok? ==> r == ResponseFrom(config, env.extract, document.value)
    ensures r.Ok? ==> ResponseDocument(env, env.transport(Outgoing(config, action, parameters))) == Ok(r.value.params)
    ensures r.Ok? ==> r.value.params.Object? && r.value == BuildResponse(config, env.extract, r.value.params)
    ensures r.Ok? ==> r.value.test == config.test && r.value.errorCode.None?
    ensures r.Err? ==> !r.error.MissingParameter?
  {
    match ResponseDocument(env, env.transport(Outgoing(config, action, parameters)))
    case Err(e) => Err(e)
    case Ok(document) => ResponseFrom(config, env.extract, document)
  }

  /** With the source's empty extraction methods every response `commit` returns is a failure
      without message, authorization or error code. */
  lemma StubbedCommitAlwaysFails(config: Config, env: Env, action: string, parameters: Value)
    requires IsStub(env.extract)
    ensures var r := Commit(config, env, action, parameters);
            r.Ok? ==> !r.value.success && r.value.message.None? && r.value.authorization.None?
                      && r.value.errorCode.None?
  {
  }

  lemma StubExtractorsAreStubs()
    ensures IsStub(StubExtractors)
  {
  }

  /** Even a document whose reason is a key of `STANDARD_ERROR_CODE_MAPPING` gets no error code:
      the table is never consulted. */
  lemma ErrorCodeMappingUnused(config: Config, extract: Extractors, document: Value)
    requires Field(document, "refuse_reason").Some?
    requires Field(document, "refuse_reason").value.Str?
    requires HasKey(StandardErrorCodeMapping, Field(document, "refuse_reason").value.s)
    ensures Lookup(StandardErrorCodeMapping, "card_declined") == Some(CardDeclined)
    ensures BuildResponse(config, extract, document).errorCode == None
  {
    LookupAt(StandardErrorCodeMapping, 0);
  }

  // ---------------------------------------------------------------------------
  // Operations

  /** `purchase(money, payment, options)`: the operation is forced to `AuthAndCapture`, so
      the `requires!` of `add_credit_card` always passes; the sale body goes to `/Sale/`. */
  function Purchase(config: Config, env: Env, money: int, card: CreditCard, options: Options): (r: Result<Response, Failure>)
    ensures r == Commit(config, env, SalePath,
                        Object([("credit_card_transaction_collection", Array([SaleTransaction(card, AuthAndCapture)])),
                                ("amount", env.amount(money)),
                                ("currency", Str(options.currency.GetOr(DefaultCurrency)))]))
    ensures r.Err? ==> !r.error.MissingParameter?
  {
    Commit(config, env, SalePath, SaleBody(money, card, options.currency, AuthAndCapture, env.amount))
  }

  /** `authorize(money, payment, options)`: as `purchase`, with operation `AuthOnly`. */
  function Authorize(config: Config, env: Env, money: int, card: CreditCard, options: Options): (r: Result<Response, Failure>)
    ensures r == Commit(config, env, SalePath,
                        Object([("credit_card_transaction_collection", Array([SaleTransaction(card, AuthOnly)])),
                                ("amount", env.amount(money)),
                                ("currency", Str(options.currency.GetOr(DefaultCurrency)))]))
    ensures r.Err? ==> !r.error.MissingParameter?
  {
    Commit(config, env, SalePath, SaleBody(money, card, options.currency, AuthOnly, env.amount))
  }

  /** `capture(money, params, options)`: the reference body to `/Sale/Capture/`. */
  function Capture(config: Config, env: Env, money: int, params: TransactionParams): (r: Result<Response, Failure>)
    ensures r == Commit(config, env, CapturePath,
                        Object([("request_key", Str(params.requestKey.GetOr(""))),
                                ("credit_card_transaction_collection",
                                 Array([ReferenceTransaction(money, params, env.amount)])),
                                ("order_key", OptionalString(params.orderKey))]))
    ensures r.Err? ==> !r.error.MissingParameter?
  {
    Commit(config, env, CapturePath, ReferenceBody(money, params, env.amount))
  }

  /** `void(money, params, options)`: the same reference body to `/Sale/Cancel/`. */
  function Void(config: Config, env: Env, money: int, params: TransactionParams): (r: Result<Response, Failure>)
    ensures r == Commit(config, env, CancelPath,
                        Object([("request_key", Str(params.requestKey.GetOr(""))),
                                ("credit_card_transaction_collection",
                                 Array([ReferenceTransaction(money, params, env.amount)])),
                                ("order_key", OptionalString(params.orderKey))]))
    ensures r.Err? ==> !r.error.MissingParameter?
  {
    Commit(config, env, CancelPath, ReferenceBody(money, params, env.amount))
  }

  /** `refund` is an alias of `void`: the reference body to `/Sale/Cancel/`. */
  function Refund(config: Config, env: Env, money: int, params: TransactionParams): (r: Result<Response, Failure>)
    ensures r == Commit(config, env, CancelPath,
                        Object([("request_key", Str(params.requestKey.GetOr(""))),
                                ("credit_card_transaction_collection",
                                 Array([ReferenceTransaction(money, params, env.amount)])),
                                ("order_key", OptionalString(params.orderKey))]))
    ensures r.Err? ==> !r.error.MissingParameter?
  {
    Void(config, env, money, params)
  }

  /** `purchase` and `authorize` go to the same URL with the same headers. */
  lemma PurchaseAndAuthorizeShareEndpoint(config: Config, money: int, card: CreditCard, options: Options, amount: int -> Value)
    ensures var p := Outgoing(config, SalePath, SaleBody(money, card, options.currency, AuthAndCapture, amount));
            var a := Outgoing(config, SalePath, SaleBody(money, card, options.currency, AuthOnly, amount));
            && p.url == a.url == Endpoint(config) + "/Sale/"
            && p.headers == a.headers
  {
  }

  /** `capture` and `void` send the same body and headers; only the path differs, and
      `refund` is `void`. */
  lemma CaptureAndVoidDifferOnlyInPath(config: Config, env: Env, money: int, params: TransactionParams)
    ensures var body := ReferenceBody(money, params, env.amount);
            var c := Outgoing(config, CapturePath, body);
            var v := Outgoing(config, CancelPath, body);
            && c.body == v.body && c.headers == v.headers
            && c.url == Endpoint(config) + "/Sale/Capture/"
            && v.url == Endpoint(config) + "/Sale/Cancel/"
    ensures Refund(config, env, money, params) == Void(config, env, money, params)
  {
  }
}

=== FILE: json.dfy ===
/** JSON values (RFC 8259) as the gateway builds and receives them, and the two Ruby
    Hash operations the gateway uses on them: lookup (`h[k]`) and assignment (`h[k] = v`). */
module Json {
  import opened Base

  /** A JSON value. Objects keep their members in insertion order, as Ruby hashes do.
      Numbers are integers: the gateway only ever sends minor-unit amounts and card dates. */
  datatype Value =
    | Null
    | Bool(b: bool)
    | Number(n: int)
    | Str(s: string)
    | Array(items: seq<Value>)
    | Object(members: seq<(string, Value)>)

  /** True when `key` names some entry of `table`. */
  predicate HasKey<V>(table: seq<(string, V)>, key: string) {
    exists i :: 0 <= i < |table| && table[i].0 == key
  }

  /** Ruby's `hash[key]`: the value stored under `key`, or nil. When a key occurs twice
      (a parsed document with a repeated member) the later entry wins, as in `JSON.parse`. */
  function Lookup<V>(table: seq<(string, V)>, key: string): (r: Option<V>)
    ensures r.None? <==> !HasKey(table, key)
    ensures r.Some? ==>
              exists i :: 0 <= i < |table| && table[i] == (key, r.value)
                          && forall j :: i < j < |table| ==> table[j].0 != key
  {
    if |table| == 0 then None
    else if table[|table| - 1].0 == key then Some(table[|table| - 1].1)
    else Lookup(table[..|table| - 1], key)
  }

  /** Ruby's `hash[key] = value`: an existing entry keeps its position and takes the new
      value; a new key is appended at the end. */
  function Put<V>(table: seq<(string, V)>, key: string, value: V): (r: seq<(string, V)>)
    ensures Lookup(r, key) == Some(value)
    ensures forall k :: k != key ==> Lookup(r, k) == Lookup(table, k)
    ensures |r| == if HasKey(table, key) then |table| else |table| + 1
    ensures forall i :: 0 <= i < |table| ==> r[i].0 == table[i].0
    ensures !HasKey(table, key) ==> r == table + [(key, value)]
  {
    if HasKey(table, key) then
      var r := seq(|table|, i requires 0 <= i < |table| =>
                              if table[i].0 == key then (key, value) else table[i]);
      LookupAfterReplace(table, r, key, value);
      r
    else
      var r := table + [(key, value)];
      LookupAfterAppend(table, key, value);
      r
  }

  /** `r` is `table` with the value of every `key` entry replaced by `value`. */
  ghost predicate Replaced<V>(table: seq<(string, V)>, r: seq<(string, V)>, key: string, value: V) {
    && |r| == |table|
    && forall i :: 0 <= i < |table| ==> r[i] == if table[i].0 == key then (key, value) else table[i]
  }

  lemma ReplacedPrefix<V>(table: seq<(string, V)>, r: seq<(string, V)>, key: string, value: V)
    requires |table| > 0 && Replaced(table, r, key, value)
    ensures Replaced(table[..|table| - 1], r[..|table| - 1], key, value)
  {
    var n := |table| - 1;
    forall i | 0 <= i < n
      ensures r[..n][i] == if table[..n][i].0 == key then (key, value) else table[..n][i]
    {
      assert r[..n][i] == r[i] && table[..n][i] == table[i];
    }
  }

  lemma {:induction false} LookupAfterReplace<V>(table: seq<(string, V)>, r: seq<(string, V)>, key: string, value: V)
    requires HasKey(table, key)
    requires Replaced(table, r, key, value)
    ensures Lookup(r, key) == Some(value)
    ensures forall k :: k != key ==> Lookup(r, k) == Lookup(table, k)
    decreases |table|
  {
    var n := |table| - 1;
    ReplacedPrefix(table, r, key, value);
    forall k | k != key
      ensures Lookup(r, k) == Lookup(table, k)
    {
      LookupPrefixRename(table, r, key, value, k);
    }
    if table[n].0 != key {
      assert HasKey(table[..n], key) by {
        var i :| 0 <= i < |table| && table[i].0 == key;
        assert i < n && table[..n][i].0 == key;
      }
      LookupAfterReplace(table[..n], r[..n], key, value);
    }
  }

  /** Renaming the value under `key` does not disturb lookups of any other key. */
  lemma {:induction false} LookupPrefixRename<V>(table: seq<(string, V)>, r: seq<(string, V)>, key: string, value: V, k: string)
    requires k != key
    requires Replaced(table, r, key, value)
    ensures Lookup(r, k) == Lookup(table, k)
    decreases |table|
  {
    if |table| > 0 {
      var n := |table| - 1;
      ReplacedPrefix(table, r, key, value);
      LookupPrefixRename(table[..n], r[..n], key, value, k);
    }
  }

  lemma LookupAfterAppend<V>(table: seq<(string, V)>, key: string, value: V)
    ensures Lookup(table + [(key, value)], key) == Some(value)
    ensures forall k :: k != key ==> Lookup(table + [(key, value)], k) == Lookup(table, k)
  {
    assert (table + [(key, value)])[..|table|] == table;
  }

  /** Building a short table key by key with distinct keys appends each entry in turn. */
  lemma PutDistinct<V>(k1: string, v1: V, k2: string, v2: V, k3: string, v3: V)
    requires k1 != k2 && k1 != k3 && k2 != k3
    ensures Put([], k1, v1) == [(k1, v1)]
    ensures Put([(k1, v1)], k2, v2) == [(k1, v1), (k2, v2)]
    ensures Put([(k1, v1), (k2, v2)], k3, v3) == [(k1, v1), (k2, v2), (k3, v3)]
  {
    PutOntoEmpty(k1, v1);
    PutOntoOne(k1, v1, k2, v2);
    PutOntoTwo(k1, v1, k2, v2, k3, v3);
  }

  lemma PutOntoEmpty<V>(k1: string, v1: V)
    ensures Put([], k1, v1) == [(k1, v1)]
  {
    var empty: seq<(string, V)> := [];
    assert !HasKey(empty, k1);
    assert empty + [(k1, v1)] == [(k1, v1)];
  }

  lemma PutOntoOne<V>(k1: string, v1: V, k2: string, v2: V)
    requires k1 != k2
    ensures Put([(k1, v1)], k2, v2) == [(k1, v1), (k2, v2)]
  {
    assert !HasKey([(k1, v1)], k2);
    assert [(k1, v1)] + [(k2, v2)] == [(k1, v1), (k2, v2)];
  }

  lemma PutOntoTwo<V>(k1: string, v1: V, k2: string, v2: V, k3: string, v3: V)
    requires k1 != k3 && k2 != k3
    ensures Put([(k1, v1), (k2, v2)], k3, v3) == [(k1, v1), (k2, v2), (k3, v3)]
  {
    assert !HasKey([(k1, v1), (k2, v2)], k3);
    assert [(k1, v1), (k2, v2)] + [(k3, v3)] == [(k1, v1), (k2, v2), (k3, v3)];
  }

  /** A key whose last occurrence is at index `i` looks up entry `i`. */
  lemma LookupAt<V>(table: seq<(string, V)>, i: nat)
    requires i < |table|
    requires forall j :: i < j < |table| ==> table[j].0 != table[i].0
    ensures Lookup(table, table[i].0) == Some(table[i].1)
  {
    var r := Lookup(table, table[i].0);
    assert HasKey(table, table[i].0);
    var i' :| 0 <= i' < |table| && table[i'] == (table[i].0, r.value)
              && forall j :: i' < j < |table| ==> table[j].0 != table[i].0;
    assert i' == i;
  }

  /** No key occurs twice. */
  predicate DistinctKeys<V>(table: seq<(string, V)>) {
    forall i, j :: 0 <= i < j < |table| ==> table[i].0 != table[j].0
  }

  /** In a table without repeated keys each entry is what its key looks up. */
  lemma LookupDistinct<V>(table: seq<(string, V)>, i: nat)
    requires DistinctKeys(table) && i < |table|
    ensures Lookup(table, table[i].0) == Some(table[i].1)
  {
    LookupAt(table, i);
  }

  /** The member's value for an object, `None` for any other value. Ruby's `[]` on documents
      that are not objects is `Gateway.IndexByString`. */
  function Field(value: Value, key: string): (r: Option<Value>)
    ensures r.Some? ==> value.Object? && HasKey(value.members, key)
  {
    if value.Object? then Lookup(value.members, key) else None
  }

  /** A Ruby value that may be nil, as it reaches `to_json`. */
  function OptionalString(s: Option<string>): (r: Value)
    ensures r.Null? <==> s.None?
    ensures s.Some? ==> r == Str(s.value)
  {
    match s
    case None => Null
    case Some(v) => Str(v)
  }
}

=== FILE: requests.dfy ===
/** The parameter hashes the gateway builds before serializing them: the new-sale body of
    `purchase`/`authorize` and the reference body of `capture`/`void`, with the constant
    tables they draw on. */
module Requests {
  import opened Base
  import opened Json

  /** `CREDIT_CARD_BRANDS`: supported card types and the backend's names for them. */
  const CreditCardBrands: seq<(string, string)> := [
    ("visa", "Visa"), ("master", "Mastercard"), ("hipercard", "Hipercard"), ("amex", "Amex"),
    ("diners", "Diners"), ("elo", "Elo"), ("aura", "Aura"), ("discover", "Discover"),
    ("casa_show", "CasaShow"), ("hug_car", "HugCard")]

  /** `CREDIT_CARD_OPERATION`. */
  const CreditCardOperation: seq<(string, string)> := [
    ("auth_only", "AuthOnly"), ("auth_and_capture", "AuthAndCapture")]

  /** `CREDIT_CARD_TRANSACTION_STATUS`. */
  const CreditCardTransactionStatus: seq<(string, string)> := [
    ("authorized_pending_capture", "AuthorizedPendingCapture"), ("captured", "Captured"),
    ("partial_capture", "PartialCapture"), ("not_authorized", "NotAuthorized"),
    ("voided", "Voided"), ("pending_void", "PendingVoid"), ("partial_void", "PartialVoid"),
    ("refunded", "Refunded"), ("pending_refund", "PendingRefund"),
    ("partial_refunded", "PartialRefunded"), ("with_error", "WithError"),
    ("not_found_in_acquirer", "NotFoundInAcquirer"), ("pending_authorize", "PendingAuthorize"),
    ("invalid", "Invalid")]

  const DefaultCurrency: string := "BRL"
  const AuthOnly: string := "AuthOnly"
  const AuthAndCapture: string := "AuthAndCapture"

  /** `supported_cardtypes`, the keys of `CREDIT_CARD_BRANDS`. */
  predicate SupportedCardType(brand: string) {
    HasKey(CreditCardBrands, brand)
  }

  /** The payment instrument as the gateway reads it (`brand`, `number`, `month`, `year`,
      `name`, `verification_value`); brand and verification value may be nil. */
  datatype CreditCard = CreditCard(
    brand: Option<string>,
    number: string,
    month: int,
    year: int,
    name: string,
    verificationValue: Option<string>)

  /** The caller's options hash, restricted to the keys the live code reads. */
  datatype Options = Options(currency: Option<string>, money: Option<int>, operation: Option<string>)

  /** The prior-transaction object `capture` and `void` read (`request_key`,
      `transaction_key`, `transaction_reference`, `order_key`). */
  datatype TransactionParams = TransactionParams(
    requestKey: Option<string>,
    transactionKey: Option<string>,
    transactionReference: Option<string>,
    orderKey: Option<string>)

  /** `card_type(credit_card_brand)`: a nil brand gives nil; any other brand is looked up in
      `CREDIT_CARD_TRANSACTION_STATUS` (not in `CREDIT_CARD_BRANDS`). */
  function CardType(brand: Option<string>): (r: Option<string>)
    ensures r.Some? <==> brand.Some? && HasKey(CreditCardTransactionStatus, brand.value)
    ensures r.Some? ==> (brand.value, r.value) in CreditCardTransactionStatus
  {
    if brand.None? then None else Lookup(CreditCardTransactionStatus, brand.value)
  }

  /** No supported card type is a key of the status table, so `card_type` yields nil for every
      supported card: the backend never receives a brand name. */
  lemma CardTypeNilForSupportedBrands(brand: Option<string>)
    requires brand.None? || SupportedCardType(brand.value)
    ensures CardType(brand) == None
  {
    assert forall i, j :: 0 <= i < |CreditCardBrands| && 0 <= j < |CreditCardTransactionStatus| ==>
             CreditCardBrands[i].0 != CreditCardTransactionStatus[j].0;
  }

  /** The `credit_card` hash built by `add_credit_card`. */
  function CreditCardFields(card: CreditCard): (r: Value)
    ensures r.Object? && |r.members| == 6
    ensures Field(r, "credit_card_brand") == Some(OptionalString(CardType(card.brand)))
    ensures Field(r, "credit_number") == Some(Str(card.number))
    ensures Field(r, "card_exp_month") == Some(Number(card.month))
    ensures Field(r, "card_exp_year") == Some(Number(card.year))
    ensures Field(r, "card_holder_name") == Some(Str(card.name))
    ensures Field(r, "card_cvv") == Some(OptionalString(card.verificationValue))
  {
    var fields := [
      ("credit_card_brand", OptionalString(CardType(card.brand))),
      ("credit_number", Str(card.number)),
      ("card_exp_month", Number(card.month)),
      ("card_exp_year", Number(card.year)),
      ("card_holder_name", Str(card.name)),
      ("card_cvv", OptionalString(card.verificationValue))];
    assert DistinctKeys(fields);
    LookupDistinct(fields, 0);
    LookupDistinct(fields, 1);
    LookupDistinct(fields, 2);
    LookupDistinct(fields, 3);
    LookupDistinct(fields, 4);
    LookupDistinct(fields, 5);
    Object(fields)
  }

  /** `add_credit_card(post, credit_card, options)`: fails when the options carry no
      operation; otherwise sets the one-element transaction collection. */
  function AddCreditCard(post: seq<(string, Value)>, card: CreditCard, options: Options): (r: Result<seq<(string, Value)>, Failure>)
    ensures r.Err? <==> options.operation.None?
    ensures r.Err? ==> r.error == MissingParameter("operation")
    ensures r.Ok? ==>
              Lookup(r.value, "credit_card_transaction_collection")
                == Some(Array([SaleTransaction(card, options.operation.value)]))
    ensures r.Ok? ==> forall k :: k != "credit_card_transaction_collection" ==> Lookup(r.value, k) == Lookup(post, k)
  {
    if options.operation.None? then Err(MissingParameter("operation"))
    else Ok(Put(post, "credit_card_transaction_collection", Array([SaleTransaction(card, options.operation.value)])))
  }

  /** The one element of a new sale's `credit_card_transaction_collection`. */
  function SaleTransaction(card: CreditCard, operation: string): (r: Value)
    ensures r.Object? && |r.members| == 2
    ensures Field(r, "credit_card") == Some(CreditCardFields(card))
    ensures Field(r, "credit_card_operation") == Some(Str(operation))
  {
    var fields := [("credit_card", CreditCardFields(card)), ("credit_card_operation", Str(operation))];
    LookupAt(fields, 0);
    LookupAt(fields, 1);
    Object(fields)
  }

  /** The live `add_invoice(post, money, options)`: the amount, and the currency from the
      options or else the default currency. */
  function AddInvoice(post: seq<(string, Value)>, money: int, options: Options, amount: int -> Value): (r: seq<(string, Value)>)
    ensures Lookup(r, "amount") == Some(amount(money))
    ensures Lookup(r, "currency") == Some(Str(options.currency.GetOr(DefaultCurrency)))
    ensures options.currency.None? ==> Lookup(r, "currency") == Some(Str("BRL"))
    ensures forall k :: k != "amount" && k != "currency" ==> Lookup(r, k) == Lookup(post, k)
  {
    Put(Put(post, "amount", amount(money)), "currency", Str(options.currency.GetOr(DefaultCurrency)))
  }

  /** `add_transaction_information(post, money, params)`. */
  function AddTransactionInformation(post: seq<(string, Value)>, money: int, params: TransactionParams, amount: int -> Value): (r: seq<(string, Value)>)
    ensures Lookup(r, "request_key") == Some(Str(params.requestKey.GetOr("")))
    ensures Lookup(r, "credit_card_transaction_collection")
              == Some(Array([ReferenceTransaction(money, params, amount)]))
    ensures Lookup(r, "order_key") == Some(OptionalString(params.orderKey))
    ensures forall k :: k != "request_key" && k != "credit_card_transaction_collection" && k != "order_key" ==>
              Lookup(r, k) == Lookup(post, k)
  {
    var transaction := ReferenceTransaction(money, params, amount);
    Put(Put(Put(post, "request_key", Str(params.requestKey.GetOr(""))),
            "credit_card_transaction_collection", Array([transaction])),
        "order_key", OptionalString(params.orderKey))
  }

  /** The one element of a reference operation's `credit_card_transaction_collection`. */
  function ReferenceTransaction(money: int, params: TransactionParams, amount: int -> Value): (r: Value)
    ensures r.Object? && |r.members| == 3
    ensures Field(r, "amount_in_cents") == Some(amount(money))
    ensures Field(r, "transaction_key") == Some(OptionalString(params.transactionKey))
    ensures Field(r, "transaction_reference") == Some(OptionalString(params.transactionReference))
  {
    var fields := [
      ("amount_in_cents", amount(money)),
      ("transaction_key", OptionalString(params.transactionKey)),
      ("transaction_reference", OptionalString(params.transactionReference))];
    LookupAt(fields, 0);
    LookupAt(fields, 1);
    LookupAt(fields, 2);
    Object(fields)
  }

  /** The new-sale body `purchase` and `authorize` post, for a given operation name: the
      operation is set, so `add_credit_card` cannot fail, and the body is the collection, the
      amount and the currency (the options' or else the default), in insertion order. */
  function SaleBody(money: int, card: CreditCard, currency: Option<string>, operation: string, amount: int -> Value): (r: Value)
    ensures r == Object([("credit_card_transaction_collection", Array([SaleTransaction(card, operation)])),
                         ("amount", amount(money)),
                         ("currency", Str(currency.GetOr(DefaultCurrency)))])
  {
    var options := Options(currency, None, Some(operation));
    match AddCreditCard([], card, options)
    case Ok(post) =>
      PutDistinct("credit_card_transaction_collection", Array([SaleTransaction(card, operation)]),
                  "amount", amount(money), "currency", Str(currency.GetOr(DefaultCurrency)));
      Object(AddInvoice(post, money, options, amount))
    case Err(_) => assert false; Null
  }

  /** Read back through `Hash#[]`, the sale body holds the amount and the currency, `BRL`
      when the options name none. */
  lemma SaleBodyLayout(money: int, card: CreditCard, currency: Option<string>, operation: string, amount: int -> Value)
    ensures var body := SaleBody(money, card, currency, operation, amount);
            && Field(body, "amount") == Some(amount(money))
            && Field(body, "currency") == Some(Str(currency.GetOr(DefaultCurrency)))
            && (currency.None? ==> Field(body, "currency") == Some(Str("BRL")))
  {
    var collection := Array([SaleTransaction(card, operation)]);
    var currencyName := Str(currency.GetOr(DefaultCurrency));
    PutDistinct("credit_card_transaction_collection", collection, "amount", amount(money), "currency", currencyName);
  }

  /** `purchase` and `authorize` bodies differ in the operation name and nothing else. */
  lemma SaleBodiesDifferOnlyInOperation(money: int, card: CreditCard, currency: Option<string>, amount: int -> Value)
    ensures var p := SaleBody(money, card, currency, AuthAndCapture, amount);
            var a := SaleBody(money, card, currency, AuthOnly, amount);
            && |p.members| == |a.members| == 3
            && p.members[1..] == a.members[1..]
            && p.members[0].1 == Array([SaleTransaction(card, AuthAndCapture)])
            && a.members[0].1 == Array([SaleTransaction(card, AuthOnly)])
    ensures SaleTransaction(card, AuthAndCapture).members[0] == SaleTransaction(card, AuthOnly).members[0]
    ensures Field(SaleTransaction(card, AuthAndCapture), "credit_card_operation") == Some(Str("AuthAndCapture"))
    ensures Field(SaleTransaction(card, AuthOnly), "credit_card_operation") == Some(Str("AuthOnly"))
  {
    SaleBodyLayout(money, card, currency, AuthAndCapture, amount);
    SaleBodyLayout(money, card, currency, AuthOnly, amount);
  }

  /** The reference body `capture` and `void` post: the request key (empty when absent), a
      one-element collection and the order key, in insertion order. */
  function ReferenceBody(money: int, params: TransactionParams, amount: int -> Value): (r: Value)
    ensures r == Object([("request_key", Str(params.requestKey.GetOr(""))),
                         ("credit_card_transaction_collection", Array([ReferenceTransaction(money, params, amount)])),
                         ("order_key", OptionalString(params.orderKey))])
  {
    PutDistinct("request_key", Str(params.requestKey.GetOr("")),
                "credit_card_transaction_collection", Array([ReferenceTransaction(money, params, amount)]),
                "order_key", OptionalString(params.orderKey));
    Object(AddTransactionInformation([], money, params, amount))
  }

  /** Read back through `Hash#[]`, the reference body holds the request key (the empty
      string when absent), the one-element collection and the order key. */
  lemma ReferenceBodyLayout(money: int, params: TransactionParams, amount: int -> Value)
    ensures var body := ReferenceBody(money, params, amount);
            && Field(body, "request_key") == Some(Str(params.requestKey.GetOr("")))
            && Field(body, "credit_card_transaction_collection")
                 == Some(Array([ReferenceTransaction(money, params, amount)]))
            && Field(body, "order_key") == Some(OptionalString(params.orderKey))
    ensures params.requestKey.None? ==> Field(ReferenceBody(money, params, amount), "request_key") == Some(Str(""))
  {
    PutDistinct("request_key", Str(params.requestKey.GetOr("")),
                "credit_card_transaction_collection", Array([ReferenceTransaction(money, params, amount)]),
                "order_key", OptionalString(params.orderKey));
  }

  /** The operation names `purchase` and `authorize` write are the values of
      `CREDIT_CARD_OPERATION`. */
  lemma OperationNamesMatchTable()
    ensures Lookup(CreditCardOperation, "auth_and_capture") == Some(AuthAndCapture)
    ensures Lookup(CreditCardOperation, "auth_only") == Some(AuthOnly)
  {
  }
}

=== FILE: scrubber.dfy ===
/** The transcript scrubber of `MundipaggGateway#scrub`: three regular-expression
    substitutions applied one after the other, each replacing the run of characters after a
    fixed marker by the redaction token. */
module Scrubber {

  /** The two character classes the patterns use: Ruby's `\w` and `\d` (ASCII only). */
  datatype CharClass = Word | Digit

  predicate InClass(c: char, cls: CharClass) {
    match cls
    case Digit => '0' <= c <= '9'
    case Word => 'a' <= c <= 'z' || 'A' <= c <= 'Z' || '0' <= c <= '9' || c == '_'
  }

  /** One substitution `gsub(%r((marker)cls+), '\1[FILTERED]')`. */
  datatype Rule = Rule(marker: string, cls: CharClass)

  const Filtered: string := "[FILTERED]"

  const AuthorizationRule := Rule("Authorization: Basic ", Word)
  const CardNumberRule := Rule("card_number=", Digit)
  const CardCvvRule := Rule("card_cvv=", Digit)

  /** A rule whose output cannot feed a later match: the token opens with `[`, which is in
      no class and in no marker, and no marker starts with a character of the token. */
  predicate WellFormed(rule: Rule) {
    && |rule.marker| > 0
    && '[' !in rule.marker
    && rule.marker[0] !in Filtered
    && !InClass('[', rule.cls)
  }

  /** The pattern matches at position `i`: the marker followed by at least one class character. */
  predicate MatchAt(s: string, i: nat, rule: Rule) {
    && i + |rule.marker| < |s|
    && s[i..i + |rule.marker|] == rule.marker
    && InClass(s[i + |rule.marker|], rule.cls)
  }

  /** No position of `s` matches the rule. */
  predicate Clean(s: string, rule: Rule) {
    forall i: nat :: i < |s| ==> !MatchAt(s, i, rule)
  }

  /** Length of the longest prefix of `s` made of class characters (what a greedy `+` eats). */
  function RunLength(s: string, cls: CharClass): (n: nat)
    ensures n <= |s|
    ensures forall i :: 0 <= i < n ==> InClass(s[i], cls)
    ensures n < |s| ==> !InClass(s[n], cls)
  {
    if |s| == 0 || !InClass(s[0], cls) then 0
    else 1 + RunLength(s[1..], cls)
  }

  /** Ruby's `gsub` for one rule: scanning left to right, the leftmost match is replaced by
      the marker and the token, and scanning resumes after the whole run. */
  function Substitute(s: string, rule: Rule): (r: string)
    ensures Clean(s, rule) ==> r == s
    decreases |s|
  {
    if |s| == 0 then []
    else if MatchAt(s, 0, rule) then
      var rest := s[|rule.marker|..];
      var n := RunLength(rest, rule.cls);
      assert n > 0;
      rule.marker + Filtered + Substitute(rest[n..], rule)
    else
      CleanTail(s, rule);
      [s[0]] + Substitute(s[1..], rule)
  }

  /** `scrub(transcript)`: the three substitutions in source order. Afterwards no
      `Authorization: Basic ` is followed by a word character and no `card_number=` or
      `card_cvv=` by a digit. */
  function Scrub(transcript: string): (r: string)
    ensures Clean(r, AuthorizationRule)
    ensures Clean(r, CardNumberRule)
    ensures Clean(r, CardCvvRule)
  {
    RulesWellFormed();
    var a := Substitute(transcript, AuthorizationRule);
    var b := Substitute(a, CardNumberRule);
    SubstituteIsClean(transcript, AuthorizationRule);
    SubstitutePreservesClean(a, CardNumberRule, AuthorizationRule);
    SubstitutePreservesClean(b, CardCvvRule, AuthorizationRule);
    SubstituteIsClean(a, CardNumberRule);
    SubstitutePreservesClean(b, CardCvvRule, CardNumberRule);
    SubstituteIsClean(b, CardCvvRule);
    Substitute(b, CardCvvRule)
  }

  /** The three rules of `scrub` satisfy `WellFormed`. */
  lemma RulesWellFormed()
    ensures WellFormed(AuthorizationRule)
    ensures WellFormed(CardNumberRule)
    ensures WellFormed(CardCvvRule)
  {
    AuthorizationRuleWellFormed();
    MarkerWellFormed(CardNumberRule.marker, Digit);
    MarkerWellFormed(CardCvvRule.marker, Digit);
  }

  lemma AuthorizationRuleWellFormed()
    ensures WellFormed(AuthorizationRule)
  {
    var m := AuthorizationRule.marker;
    assert m == "Authorization:" + " Basic ";
    MarkerWellFormed("Authorization:", Word);
    MarkerWellFormed(" Basic ", Word);
  }

  /** A marker of letters, digits, `_`, spaces, `:` and `=` has no `[`, and its first
      character is not one of the token's. */
  lemma MarkerWellFormed(marker: string, cls: CharClass)
    requires |marker| > 0
    requires forall i :: 0 <= i < |marker| ==> InClass(marker[i], Word) || marker[i] in " :="
    requires marker[0] !in Filtered
    ensures WellFormed(Rule(marker, cls))
  {
  }

  // ---------------------------------------------------------------------------
  // One substitution

  /** A match replaces exactly the maximal run: given the marker, a non-empty run of class
      characters and a rest that does not continue the run, the output is the marker, the
      token and the scrubbed rest. The characters after the run (Base64 `=` padding after a
      `\w` run, say) are kept. */
  lemma {:induction false} SubstituteReplacesMaximalRun(rule: Rule, run: string, rest: string)
    requires |run| > 0
    requires forall i :: 0 <= i < |run| ==> InClass(run[i], rule.cls)
    requires |rest| > 0 ==> !InClass(rest[0], rule.cls)
    ensures Substitute(rule.marker + run + rest, rule) == rule.marker + Filtered + Substitute(rest, rule)
  {
    var s := rule.marker + run + rest;
    assert s[..|rule.marker|] == rule.marker;
    assert s[|rule.marker|] == run[0];
    assert MatchAt(s, 0, rule);
    var tail := s[|rule.marker|..];
    assert tail == run + rest;
    var n := RunLength(tail, rule.cls);
    assert forall i :: 0 <= i < |run| ==> tail[i] == run[i];
    assert |run| < |tail| ==> tail[|run|] == rest[0];
    assert n == |run|;
    assert tail[n..] == rest;
  }

  /** A character at which no match starts is copied and scanning moves on: a character
      other than the marker's first, or the start of a near miss such as `card_holder_name=`
      against `card_number=`. */
  lemma SubstituteCopiesNonMatch(c: char, rest: string, rule: Rule)
    requires !MatchAt([c] + rest, 0, rule)
    ensures Substitute([c] + rest, rule) == [c] + Substitute(rest, rule)
  {
    assert ([c] + rest)[1..] == rest;
  }

  /** In particular a character other than the marker's first never starts a match. */
  lemma NonMarkerStartsNoMatch(c: char, rest: string, rule: Rule)
    requires |rule.marker| > 0 && c != rule.marker[0]
    ensures !MatchAt([c] + rest, 0, rule)
  {
    if |rule.marker| < |[c] + rest| {
      assert ([c] + rest)[0..|rule.marker|][0] == c;
    }
  }

  /** Characters after a replaced run that are outside the class and cannot start the
      marker survive the substitution. */
  lemma {:induction false} SubstituteKeepsPadding(rule: Rule, run: string, rest: string)
    requires |rule.marker| > 0 && rule.marker[0] != '=' && !InClass('=', rule.cls)
    requires |run| > 0
    requires forall i :: 0 <= i < |run| ==> InClass(run[i], rule.cls)
    ensures Substitute(rule.marker + run + ("==" + rest), rule)
              == rule.marker + Filtered + ("==" + Substitute(rest, rule))
  {
    var pad := "==" + rest;
    assert pad[0] == '=';
    SubstituteReplacesMaximalRun(rule, run, pad);
    PaddingSplits(rest);
    PaddingSplits(Substitute(rest, rule));
    SubstituteCopiesEquals(rule, rest);
    SubstituteCopiesEquals(rule, ['='] + rest);
  }

  /** `==` in front of a string is two single `=`s. */
  lemma PaddingSplits(rest: string)
    ensures "==" + rest == ['='] + (['='] + rest)
  {
  }

  /** One `=` is copied by a rule whose marker does not start with `=`. */
  lemma SubstituteCopiesEquals(rule: Rule, rest: string)
    requires |rule.marker| > 0 && rule.marker[0] != '='
    ensures Substitute(['='] + rest, rule) == ['='] + Substitute(rest, rule)
  {
    NonMarkerStartsNoMatch('=', rest, rule);
    SubstituteCopiesNonMatch('=', rest, rule);
  }

  /** The test transcript's case: the Base64 padding `==` after a Basic credential is not a
      word character, so it survives the authorization substitution. */
  lemma AuthorizationKeepsBase64Padding(credential: string, rest: string)
    requires |credential| > 0
    requires forall i :: 0 <= i < |credential| ==> InClass(credential[i], Word)
    ensures Substitute(AuthorizationRule.marker + credential + ("==" + rest), AuthorizationRule)
              == AuthorizationRule.marker + Filtered + ("==" + Substitute(rest, AuthorizationRule))
  {
    SubstituteKeepsPadding(AuthorizationRule, credential, rest);
  }

  /** The first `k` characters of `t` hold no `[`. */
  predicate NoBracketBefore(t: string, k: nat) {
    k <= |t| && forall i :: 0 <= i < k ==> t[i] != '['
  }

  /** Where the output has no token character in its first `k` places, it agrees there with
      the input: a substitution first differs from its input at a `[`. */
  lemma {:induction false} SubstituteAgreesBeforeToken(s: string, rule: Rule, k: nat)
    requires NoBracketBefore(Substitute(s, rule), k)
    ensures k <= |s|
    ensures Substitute(s, rule)[..k] == s[..k]
    decreases |s|
  {
    var out := Substitute(s, rule);
    if |s| == 0 {
    } else if MatchAt(s, 0, rule) {
      var rest := s[|rule.marker|..];
      var n := RunLength(rest, rule.cls);
      AgreesBeforeReplacement(s, rule, k, out, Substitute(rest[n..], rule));
    } else if k > 0 {
      var tail := Substitute(s[1..], rule);
      assert out == [s[0]] + tail;
      NoBracketShift(out, tail, k);
      SubstituteAgreesBeforeToken(s[1..], rule, k - 1);
      AgreesAfterCopy(s, k, out, tail);
    }
  }

  lemma NoBracketShift(out: string, tail: string, k: nat)
    requires 0 < k && NoBracketBefore(out, k)
    requires |out| > 0 && out[1..] == tail
    ensures NoBracketBefore(tail, k - 1)
  {
    forall i | 0 <= i < k - 1
      ensures tail[i] != '['
    {
      assert tail[i] == out[i + 1];
    }
  }

  /** The matching case: the output's first `[` is right after the copied marker. */
  lemma AgreesBeforeReplacement(s: string, rule: Rule, k: nat, out: string, tail: string)
    requires MatchAt(s, 0, rule)
    requires out == rule.marker + Filtered + tail
    requires NoBracketBefore(out, k)
    ensures k <= |s| && out[..k] == s[..k]
  {
    assert out[|rule.marker|] == '[';
    assert out[..k] == rule.marker[..k];
    assert s[..|rule.marker|] == rule.marker;
  }

  /** The copying case: one copied character before an agreeing rest. */
  lemma AgreesAfterCopy(s: string, k: nat, out: string, tail: string)
    requires 0 < k && |s| > 0
    requires out == [s[0]] + tail
    requires k - 1 <= |s[1..]| && k - 1 <= |tail| && tail[..k - 1] == s[1..][..k - 1]
    ensures k <= |s| && out[..k] == s[..k]
  {
    assert out[..k] == [s[0]] + tail[..k - 1];
    assert s[..k] == [s[0]] + s[1..][..k - 1];
  }

  /** Helper for the two cleanliness lemmas: a match of `q` cannot start in the replacement
      `marker + Filtered` of a well-formed rule `p`, unless it lies inside the copied marker
      and was a match in the input already. */
  lemma NoMatchInReplacement(s: string, p: Rule, q: Rule, out: string, tail: string, i: nat)
    requires WellFormed(p) && WellFormed(q)
    requires p.marker <= s
    requires out == p.marker + Filtered + tail
    requires i < |p.marker| + |Filtered|
    requires MatchAt(out, i, q)
    ensures i + |q.marker| < |p.marker| && MatchAt(s, i, q)
  {
    var m := |p.marker|;
    assert out[..m] == p.marker;
    assert forall j :: m <= j < m + |Filtered| ==> out[j] == Filtered[j - m];
    assert out[i] == q.marker[0];
    assert out[m] == '[';
    assert forall j :: i <= j < i + |q.marker| ==> out[j] == q.marker[j - i];
    assert s[..m] == p.marker;
    assert s[i..i + |q.marker|] == out[i..i + |q.marker|];
    assert s[i + |q.marker|] == out[i + |q.marker|];
  }

  /** Helper: a first character the input did not match at cannot start a match in the output
      either, because the output's first `|marker| + 1` characters are the input's. */
  lemma NoMatchAtStep(s: string, p: Rule, q: Rule)
    requires WellFormed(q)
    requires |s| > 0 && !MatchAt(s, 0, q)
    ensures !MatchAt([s[0]] + Substitute(s[1..], p), 0, q)
  {
    var tail := Substitute(s[1..], p);
    var k := |q.marker|;
    if NoBracketBefore(tail, k) {
      SubstituteAgreesBeforeToken(s[1..], p, k);
    }
    NoMatchAtStepWith(s, tail, q);
  }

  lemma NoMatchAtStepWith(s: string, tail: string, q: Rule)
    requires WellFormed(q)
    requires |s| > 0 && !MatchAt(s, 0, q)
    requires |q.marker| <= |tail| && (forall i :: 0 <= i < |q.marker| ==> tail[i] != '[') ==>
               |q.marker| <= |s| - 1 && tail[..|q.marker|] == s[1..][..|q.marker|]
    ensures !MatchAt([s[0]] + tail, 0, q)
  {
    var out := [s[0]] + tail;
    var k := |q.marker|;
    if k <= |tail| && forall i :: 0 <= i < k ==> tail[i] != '[' {
      calc {
        s[..k + 1];
        [s[0]] + s[1..][..k];
        [s[0]] + tail[..k];
        out[..k + 1];
      }
      MatchAtDependsOnPrefix(s, out, q);
    } else if k <= |tail| {
      var i :| 0 <= i < k && tail[i] == '[';
      assert out[i + 1] == '[';
      OpenBracketBlocksMatch(out, i + 1, q);
    }
  }

  /** An opening bracket within the first `|marker| + 1` characters rules out a match at the
      start: no marker contains one and no class does. */
  lemma OpenBracketBlocksMatch(out: string, j: nat, q: Rule)
    requires WellFormed(q)
    requires j <= |q.marker| && j < |out| && out[j] == '['
    ensures !MatchAt(out, 0, q)
  {
    if j < |q.marker| && |q.marker| < |out| {
      assert out[..|q.marker|][j] == '[';
    }
  }

  /** Whether a rule matches at the start depends only on the first `|marker| + 1` characters. */
  lemma MatchAtDependsOnPrefix(a: string, b: string, q: Rule)
    requires |q.marker| < |a| && |q.marker| < |b|
    requires a[..|q.marker| + 1] == b[..|q.marker| + 1]
    ensures MatchAt(a, 0, q) == MatchAt(b, 0, q)
  {
    var k := |q.marker|;
    assert a[..k] == a[..k + 1][..k];
    assert b[..k] == b[..k + 1][..k];
    assert a[k] == a[..k + 1][k];
    assert b[k] == b[..k + 1][k];
  }

  /** After a substitution no match of the same rule is left. */
  lemma {:induction false} SubstituteIsClean(s: string, rule: Rule)
    requires WellFormed(rule)
    ensures Clean(Substitute(s, rule), rule)
    decreases |s|
  {
    var out := Substitute(s, rule);
    if |s| == 0 {
    } else if MatchAt(s, 0, rule) {
      var rest := s[|rule.marker|..];
      var n := RunLength(rest, rule.cls);
      var tail := Substitute(rest[n..], rule);
      SubstituteIsClean(rest[n..], rule);
      assert out == rule.marker + Filtered + tail;
      var offset := |rule.marker| + |Filtered|;
      forall i: nat | i < |out|
        ensures !MatchAt(out, i, rule)
      {
        if i < offset {
          if MatchAt(out, i, rule) {
            NoMatchInReplacement(s, rule, rule, out, tail, i);
          }
        } else {
          ShiftMatch(out, offset, tail, i, rule);
        }
      }
    } else {
      var tail := Substitute(s[1..], rule);
      SubstituteIsClean(s[1..], rule);
      assert out == [s[0]] + tail;
      forall i: nat | i < |out|
        ensures !MatchAt(out, i, rule)
      {
        if i == 0 {
          NoMatchAtStep(s, rule, rule);
        } else {
          ShiftMatch(out, 1, tail, i, rule);
        }
      }
    }
  }

  /** Matches in a suffix are matches in the whole string, shifted. */
  lemma ShiftMatch(out: string, offset: nat, tail: string, i: nat, rule: Rule)
    requires offset <= i
    requires offset <= |out| && out[offset..] == tail
    ensures MatchAt(out, i, rule) <==> MatchAt(tail, i - offset, rule)
  {
    var L := |rule.marker|;
    if i + L < |out| {
      forall j | i <= j <= i + L
        ensures out[j] == tail[j - offset]
      {
      }
      assert out[i..i + L] == tail[i - offset..i - offset + L];
      assert out[i + L] == tail[i - offset + L];
    }
  }

  /** A string every suffix of which is clean when the string is. */
  lemma CleanSuffix(s: string, k: nat, rule: Rule)
    requires k <= |s| && Clean(s, rule)
    ensures Clean(s[k..], rule)
  {
    forall i: nat | i < |s[k..]|
      ensures !MatchAt(s[k..], i, rule)
    {
      ShiftMatch(s, k, s[k..], i + k, rule);
    }
  }

  /** A substitution for rule `p` creates no match of another well-formed rule `q`. */
  lemma {:induction false} SubstitutePreservesClean(s: string, p: Rule, q: Rule)
    requires WellFormed(p) && WellFormed(q)
    requires Clean(s, q)
    ensures Clean(Substitute(s, p), q)
    decreases |s|
  {
    if |s| == 0 {
    } else if MatchAt(s, 0, p) {
      var rest := s[|p.marker|..];
      var n := RunLength(rest, p.cls);
      assert rest[n..] == s[|p.marker| + n..];
      CleanSuffix(s, |p.marker| + n, q);
      SubstitutePreservesClean(rest[n..], p, q);
      CleanAfterReplacement(s, p, q, Substitute(rest[n..], p));
    } else {
      CleanSuffix(s, 1, q);
      SubstitutePreservesClean(s[1..], p, q);
      CleanAfterCopy(s, p, q);
    }
  }

  /** The matching case: the marker and the token followed by a clean tail hold no match. */
  lemma CleanAfterReplacement(s: string, p: Rule, q: Rule, tail: string)
    requires WellFormed(p) && WellFormed(q)
    requires Clean(s, q) && Clean(tail, q)
    requires p.marker <= s
    ensures Clean(p.marker + Filtered + tail, q)
  {
    var out := p.marker + Filtered + tail;
    var offset := |p.marker| + |Filtered|;
    assert out[offset..] == tail;
    forall i: nat | i < |out|
      ensures !MatchAt(out, i, q)
    {
      if i < offset {
        if MatchAt(out, i, q) {
          NoMatchInReplacement(s, p, q, out, tail, i);
        }
      } else {
        ShiftMatch(out, offset, tail, i, q);
      }
    }
  }

  /** The copying case: one unmatched character before a clean scrubbed rest holds no match. */
  lemma CleanAfterCopy(s: string, p: Rule, q: Rule)
    requires WellFormed(q)
    requires |s| > 0 && Clean(s, q) && Clean(Substitute(s[1..], p), q)
    requires !MatchAt(s, 0, p)
    ensures Clean(Substitute(s, p), q)
  {
    var tail := Substitute(s[1..], p);
    var out := Substitute(s, p);
    assert out == [s[0]] + tail;
    forall i: nat | i < |out|
      ensures !MatchAt(out, i, q)
    {
      if i == 0 {
        assert !MatchAt(s, 0, q);
        NoMatchAtStep(s, p, q);
      } else {
        ShiftMatch(out, 1, tail, i, q);
      }
    }
  }

  /** Dropping the first character of a clean string leaves it clean. */
  lemma CleanTail(s: string, rule: Rule)
    requires |s| > 0
    ensures Clean(s, rule) ==> Clean(s[1..], rule)
  {
    if Clean(s, rule) {
      CleanSuffix(s, 1, rule);
    }
  }

  // ---------------------------------------------------------------------------
  // The scrubber

  /** A transcript with nothing to redact passes through unchanged. */
  lemma ScrubKeepsClean(transcript: string)
    requires Clean(transcript, AuthorizationRule)
    requires Clean(transcript, CardNumberRule)
    requires Clean(transcript, CardCvvRule)
    ensures Scrub(transcript) == transcript
  {
  }

  /** Scrubbing twice is scrubbing once. */
  lemma ScrubIdempotent(transcript: string)
    ensures Scrub(Scrub(transcript)) == Scrub(transcript)
  {
    ScrubKeepsClean(Scrub(transcript));
  }

  // ---------------------------------------------------------------------------
  // What the patterns do not reach

  /** A text lacking some character of a rule's marker holds no match of that rule. */
  lemma CleanWithoutMarkerChar(text: string, rule: Rule, j: nat)
    requires j < |rule.marker| && rule.marker[j] !in text
    ensures Clean(text, rule)
  {
    forall i: nat | i < |text|
      ensures !MatchAt(text, i, rule)
    {
      if i + |rule.marker| < |text| {
        assert text[i..i + |rule.marker|][j] == text[i + j];
        assert text[i + j] in text;
      }
    }
  }

  /** A text with no `_` and without one character of `Authorization: Basic ` passes
      through `scrub` unchanged: the other two markers both hold a `_`. */
  lemma ScrubLeavesMarkerFree(text: string, j: nat)
    requires j < |AuthorizationRule.marker| && AuthorizationRule.marker[j] !in text
    requires '_' !in text
    ensures Scrub(text) == text
  {
    assert CardNumberRule.marker[4] == '_';
    assert CardCvvRule.marker[4] == '_';
    CleanWithoutMarkerChar(text, AuthorizationRule, j);
    CleanWithoutMarkerChar(text, CardNumberRule, 4);
    CleanWithoutMarkerChar(text, CardCvvRule, 4);
    ScrubKeepsClean(text);
  }

  predicate AllDigits(s: string) {
    forall i :: 0 <= i < |s| ==> InClass(s[i], Digit)
  }

  /** The card number and security code as the JSON request body carries them (camel-case
      keys, no spaces) survive `scrub` in full: the patterns look for the form-encoded
      `card_number=` and `card_cvv=`. */
  lemma ScrubMissesJsonCardFields(number: string, cvv: string)
    requires AllDigits(number) && AllDigits(cvv)
    ensures var field := "\"CreditNumber\":\"" + number + "\"";
            Scrub(field) == field
    ensures var field := "\"CardCvv\":\"" + cvv + "\"";
            Scrub(field) == field
  {
    ScrubMissesJsonMember("\"CreditNumber\":\"", number);
    ScrubMissesJsonMember("\"CardCvv\":\"", cvv);
  }

  /** A JSON member whose key part has no `_` and no space and whose value is digits. */
  lemma ScrubMissesJsonMember(key: string, digits: string)
    requires '_' !in key && ' ' !in key
    requires AllDigits(digits)
    ensures Scrub(key + digits + "\"") == key + digits + "\""
  {
    DigitsFree(digits);
    var field := key + digits + "\"";
    forall i | 0 <= i < |field|
      ensures field[i] != '_' && field[i] != ' '
    {
      if i < |key| {
        assert field[i] == key[i];
      } else if i < |key| + |digits| {
        assert field[i] == digits[i - |key|];
      }
    }
    assert AuthorizationRule.marker[14] == ' ';
    ScrubLeavesMarkerFree(field, 14);
  }

  lemma DigitsFree(s: string)
    requires AllDigits(s)
    ensures '_' !in s && ' ' !in s
  {
    forall i | 0 <= i < |s|
      ensures s[i] != '_' && s[i] != ' '
    {
      assert InClass(s[i], Digit);
    }
  }

  /** A GUID-shaped merchant key: hexadecimal digits, in either case, and hyphens. */
  predicate GuidShaped(key: string) {
    forall i :: 0 <= i < |key| ==>
      InClass(key[i], Digit) || 'a' <= key[i] <= 'f' || 'A' <= key[i] <= 'F' || key[i] == '-'
  }

  /** The `MerchantKey` header the gateway adds to every request carries the credential in
      the clear, and no pattern of `scrub` covers it, whether the transcript spells the name
      as given or with HTTP's usual capitalization. */
  lemma ScrubMissesMerchantKeyHeader(name: string, key: string)
    requires name == "MerchantKey" || name == "Merchantkey"
    requires GuidShaped(key)
    ensures Scrub(name + ": " + key) == name + ": " + key
  {
    var text := name + ": " + key;
    forall i | 0 <= i < |text|
      ensures text[i] != 'z' && text[i] != '_'
    {
      if i >= 13 {
        assert text[i] == key[i - 13];
      }
    }
    assert AuthorizationRule.marker[7] == 'z';
    ScrubLeavesMarkerFree(text, 7);
  }
}

=== FILE: serializer.dfy ===
/** `post_data`: the request parameters with every object key, at every depth, renamed by
    `camelize`, before JSON encoding. */
module Serializer {
  import opened Json

  /** ASCII upper-casing of one character. */
  function Upcase(c: char): (r: char)
    ensures 'a' <= c <= 'z' ==> r as int == c as int - 32
    ensures !('a' <= c <= 'z') ==> r == c
    ensures Upcase(r) == r
  {
    if 'a' <= c <= 'z' then (c as int - 32) as char else c
  }

  /** `camelize` on a lower-case snake key: each character that starts the key or follows an
      underscore is upper-cased, and the underscores are dropped. `capitalize` says whether the
      next character kept starts a word. */
  function CamelizeFrom(key: string, capitalize: bool): string
    decreases |key|
  {
    if |key| == 0 then ""
    else if key[0] == '_' then CamelizeFrom(key[1..], true)
    else [if capitalize then Upcase(key[0]) else key[0]] + CamelizeFrom(key[1..], false)
  }

  /** The result has no underscore, is no longer than the key, and starts with an upper-cased
      character when a word starts there. */
  lemma {:induction false} CamelizeFromShape(key: string, capitalize: bool)
    ensures '_' !in CamelizeFrom(key, capitalize)
    ensures |CamelizeFrom(key, capitalize)| <= |key|
    ensures var r := CamelizeFrom(key, capitalize);
            |r| > 0 && capitalize ==> Upcase(r[0]) == r[0]
    decreases |key|
  {
    if |key| > 0 {
      if key[0] == '_' {
        CamelizeFromShape(key[1..], true);
      } else {
        CamelizeFromShape(key[1..], false);
      }
    }
  }

  /** `key.to_s.camelize`: the result is camel-case and no longer than the key. */
  function Camelize(key: string): (r: string)
    ensures IsCamel(r)
    ensures |r| <= |key|
  {
    CamelizeFromShape(key, true);
    CamelizeFrom(key, true)
  }

  /** A key `camelize` leaves alone: no underscore, and an upper-case (or non-letter) start. */
  predicate IsCamel(key: string) {
    '_' !in key && (|key| == 0 || Upcase(key[0]) == key[0])
  }

  /** Without underscores, only the first character can change. */
  lemma {:induction false} CamelizeWithoutUnderscores(key: string, capitalize: bool)
    requires '_' !in key
    ensures capitalize && |key| > 0 ==> CamelizeFrom(key, capitalize) == [Upcase(key[0])] + key[1..]
    ensures !capitalize ==> CamelizeFrom(key, capitalize) == key
    decreases |key|
  {
    if |key| > 0 {
      CamelizeWithoutUnderscores(key[1..], false);
    }
  }

  /** The keys `camelize` leaves unchanged are exactly the camel-case ones. */
  lemma CamelizeFixedPoints(key: string)
    ensures Camelize(key) == key <==> IsCamel(key)
  {
    CamelizeFromShape(key, true);
    if IsCamel(key) {
      CamelizeWithoutUnderscores(key, true);
      if |key| > 0 {
        assert [key[0]] + key[1..] == key;
      }
    }
  }

  /** Every result of `camelize` is camel-case, so `camelize` is idempotent. */
  lemma CamelizeIdempotent(key: string)
    ensures IsCamel(Camelize(key))
    ensures Camelize(Camelize(key)) == Camelize(key)
  {
    CamelizeFromShape(key, true);
    CamelizeFixedPoints(Camelize(key));
  }

  /** A key's first word, upper-cased at its start. */
  function Capitalized(word: string): (r: string)
    requires |word| > 0
    ensures |r| == |word| && r[1..] == word[1..] && r[0] == Upcase(word[0])
  {
    [Upcase(word[0])] + word[1..]
  }

  /** Camelizing splits at an underscore: the part before it is processed on its own, and
      the part after it starts a new word. */
  lemma {:induction false} CamelizeSplit(word: string, rest: string, capitalize: bool)
    requires |word| > 0 && '_' !in word
    ensures CamelizeFrom(word + "_" + rest, capitalize)
            == CamelizeFrom(word, capitalize) + CamelizeFrom(rest, true)
    decreases |word|
  {
    if |word| == 1 {
      assert (word + "_" + rest)[1..] == "_" + rest;
      assert ("_" + rest)[1..] == rest;
    } else {
      assert (word + "_" + rest)[1..] == word[1..] + "_" + rest;
      CamelizeSplit(word[1..], rest, false);
    }
  }

  /** A snake-case word: non-empty, no underscore. */
  predicate IsWord(word: string) {
    |word| > 0 && '_' !in word
  }

  /** The snake-case key `words[0]_words[1]_...`. */
  function SnakeKey(words: seq<string>): (r: string)
    requires |words| > 0
    ensures |words| > 1 ==> r == words[0] + "_" + SnakeKey(words[1..])
    decreases |words|
  {
    if |words| == 1 then words[0] else words[0] + "_" + SnakeKey(words[1..])
  }

  /** The camel-case key `Words[0]Words[1]...`. */
  function CamelKey(words: seq<string>): (r: string)
    requires forall i :: 0 <= i < |words| ==> IsWord(words[i])
    decreases |words|
  {
    if |words| == 0 then ""
    else
      assert IsWord(words[0]);
      Capitalized(words[0]) + CamelKey(words[1..])
  }

  /** `camelize` maps the snake-case key of a list of words to the concatenation of the
      capitalized words. */
  lemma {:induction false} CamelizeSnakeKey(words: seq<string>)
    requires |words| > 0 && forall i :: 0 <= i < |words| ==> IsWord(words[i])
    ensures Camelize(SnakeKey(words)) == CamelKey(words)
    decreases |words|
  {
    CamelizeWithoutUnderscores(words[0], true);
    if |words| > 1 {
      CamelizeSnakeKey(words[1..]);
      CamelizeSplit(words[0], SnakeKey(words[1..]), true);
      assert CamelKey(words[1..][1..]) == CamelKey(words[2..]);
    } else {
      assert CamelKey(words) == Capitalized(words[0]) + CamelKey([]);
    }
  }

  /** `deep_transform_keys`: rename object keys with `rename` at every depth, inside arrays
      too, leaving values, array lengths and member order alone. */
  function RenameKeys(value: Value, rename: string -> string): (r: Value)
    ensures Renamed(r, value, rename)
    decreases value
  {
    match value
    case Array(items) =>
      Array(seq(|items|, i requires 0 <= i < |items| => RenameKeys(items[i], rename)))
    case Object(members) =>
      Object(seq(|members|, i requires 0 <= i < |members| =>
                                  (rename(members[i].0), RenameKeys(members[i].1, rename))))
    case _ => value
  }

  /** `post_data(parameters)` before `to_json`: the parameters with every key camelized at
      every depth, so every key of the result is camel-case. */
  function PostData(parameters: Value): (r: Value)
    ensures Renamed(r, parameters, Camelize)
    ensures EveryKey(r, IsCamel)
  {
    RenameKeysImage(parameters, Camelize, IsCamel);
    RenameKeys(parameters, Camelize)
  }

  /** Every object key, at every depth, satisfies `P`. */
  predicate EveryKey(value: Value, P: string -> bool)
    decreases value
  {
    match value
    case Array(items) => forall i :: 0 <= i < |items| ==> EveryKey(items[i], P)
    case Object(members) =>
      forall i :: 0 <= i < |members| ==> P(members[i].0) && EveryKey(members[i].1, P)
    case _ => true
  }

  /** `a` and `b` differ at most in object keys: the same scalars, the same kinds of
      container, the same lengths, and member values and array items pairwise alike in order. */
  predicate SameShape(a: Value, b: Value)
    decreases a
  {
    match a
    case Array(items) =>
      && b.Array? && |b.items| == |items|
      && forall i :: 0 <= i < |items| ==> SameShape(items[i], b.items[i])
    case Object(members) =>
      && b.Object? && |b.members| == |members|
      && forall i :: 0 <= i < |members| ==> SameShape(members[i].1, b.members[i].1)
    case _ => a == b
  }

  /** `a` is `b` with every object key, at every depth and inside arrays too, replaced by
      `rename` of it: the same scalars, container kinds, lengths and order, and each member's
      key the renamed key of the member it stands for. */
  predicate Renamed(a: Value, b: Value, rename: string -> string)
    decreases a
  {
    match a
    case Array(items) =>
      && b.Array? && |b.items| == |items|
      && forall i :: 0 <= i < |items| ==> Renamed(items[i], b.items[i], rename)
    case Object(members) =>
      && b.Object? && |b.members| == |members|
      && forall i :: 0 <= i < |members| ==>
           members[i].0 == rename(b.members[i].0) && Renamed(members[i].1, b.members[i].1, rename)
    case _ => a == b
  }

  /** Renaming with `f` and then with `g` is renaming once with their composition. */
  lemma {:induction false} RenameKeysCompose(value: Value, f: string -> string, g: string -> string, h: string -> string)
    requires forall k :: h(k) == g(f(k))
    ensures RenameKeys(RenameKeys(value, f), g) == RenameKeys(value, h)
    decreases value
  {
    match value
    case Array(items) =>
      forall i | 0 <= i < |items| {
        RenameKeysCompose(items[i], f, g, h);
      }
    case Object(members) =>
      forall i | 0 <= i < |members| {
        RenameKeysCompose(members[i].1, f, g, h);
      }
    case _ =>
  }

  /** Renaming changes keys only: values, array lengths and member order are kept, and
      every member's key, at every depth, is the renamed original key. */
  lemma {:induction false} RenameKeysKeepsShape(value: Value, rename: string -> string)
    ensures Renamed(RenameKeys(value, rename), value, rename)
    ensures SameShape(RenameKeys(value, rename), value)
    decreases value
  {
    match value
    case Array(items) =>
      var renamed := RenameKeys(value, rename).items;
      forall i | 0 <= i < |items|
        ensures Renamed(renamed[i], items[i], rename) && SameShape(renamed[i], items[i])
      {
        RenameKeysKeepsShape(items[i], rename);
      }
    case Object(members) =>
      var renamed := RenameKeys(value, rename).members;
      forall i | 0 <= i < |members|
        ensures renamed[i].0 == rename(members[i].0)
        ensures Renamed(renamed[i].1, members[i].1, rename) && SameShape(renamed[i].1, members[i].1)
      {
        RenameKeysKeepsShape(members[i].1, rename);
      }
    case _ =>
  }

  /** `RenameKeys` is the only value renamed from `original`: a value with the original's
      shape and every key renamed is the result of `RenameKeys`. */
  lemma {:induction false} RenamedIsRenameKeys(value: Value, original: Value, rename: string -> string)
    requires Renamed(value, original, rename)
    ensures value == RenameKeys(original, rename)
    decreases value
  {
    match value
    case Array(items) =>
      var renamed := RenameKeys(original, rename).items;
      forall i | 0 <= i < |items|
        ensures items[i] == renamed[i]
      {
        RenamedIsRenameKeys(items[i], original.items[i], rename);
      }
    case Object(members) =>
      var renamed := RenameKeys(original, rename).members;
      forall i | 0 <= i < |members|
        ensures members[i] == renamed[i]
      {
        RenamedIsRenameKeys(members[i].1, original.members[i].1, rename);
      }
    case _ =>
  }

  /** The keys of the renamed value are exactly the renamed keys, at every depth. */
  lemma {:induction false} RenameKeysEveryKey(value: Value, rename: string -> string, P: string -> bool, Q: string -> bool)
    requires forall k :: Q(k) == P(rename(k))
    ensures EveryKey(RenameKeys(value, rename), P) <==> EveryKey(value, Q)
    decreases value
  {
    match value
    case Array(items) =>
      var renamed := RenameKeys(value, rename).items;
      forall i | 0 <= i < |items|
        ensures EveryKey(renamed[i], P) <==> EveryKey(items[i], Q)
      {
        RenameKeysEveryKey(items[i], rename, P, Q);
      }
    case Object(members) =>
      var renamed := RenameKeys(value, rename).members;
      forall i | 0 <= i < |members|
        ensures EveryKey(renamed[i].1, P) <==> EveryKey(members[i].1, Q)
      {
        RenameKeysEveryKey(members[i].1, rename, P, Q);
      }
    case _ =>
  }

  /** If every renamed key satisfies `P`, every key of the renamed value does, at every depth. */
  lemma {:induction false} RenameKeysImage(value: Value, rename: string -> string, P: string -> bool)
    requires forall k :: P(rename(k))
    ensures EveryKey(RenameKeys(value, rename), P)
    decreases value
  {
    match value
    case Array(items) =>
      var renamed := RenameKeys(value, rename).items;
      forall i | 0 <= i < |items|
        ensures EveryKey(renamed[i], P)
      {
        RenameKeysImage(items[i], rename, P);
      }
    case Object(members) =>
      var renamed := RenameKeys(value, rename).members;
      forall i | 0 <= i < |members|
        ensures P(renamed[i].0) && EveryKey(renamed[i].1, P)
      {
        assert renamed[i].0 == rename(members[i].0);
        RenameKeysImage(members[i].1, rename, P);
      }
    case _ =>
  }

  /** A renaming that fixes every key present leaves the value unchanged. */
  lemma {:induction false} RenameKeysIdentity(value: Value, rename: string -> string, P: string -> bool)
    requires EveryKey(value, P)
    requires forall k :: P(k) ==> rename(k) == k
    ensures RenameKeys(value, rename) == value
    decreases value
  {
    match value
    case Array(items) =>
      forall i | 0 <= i < |items| {
        RenameKeysIdentity(items[i], rename, P);
      }
      assert RenameKeys(value, rename).items == items;
    case Object(members) =>
      forall i | 0 <= i < |members| {
        RenameKeysIdentity(members[i].1, rename, P);
      }
      assert RenameKeys(value, rename).members == members;
    case _ =>
  }

  /** Every key of the wire body, at every depth, is camel-case. */
  lemma PostDataCamelizesEveryKey(parameters: Value)
    ensures EveryKey(PostData(parameters), IsCamel)
  {
    forall k {
      CamelizeIdempotent(k);
    }
    RenameKeysImage(parameters, Camelize, IsCamel);
  }

  /** Serializing an already serialized body renames nothing more. */
  lemma PostDataIdempotent(parameters: Value)
    ensures PostData(PostData(parameters)) == PostData(parameters)
  {
    PostDataCamelizesEveryKey(parameters);
    forall k | IsCamel(k) {
      CamelizeFixedPoints(k);
    }
    RenameKeysIdentity(PostData(parameters), Camelize, IsCamel);
  }

  /** The wire body is the parameters with every key camelized at every depth and nothing
      else changed. */
  lemma PostDataKeepsShape(parameters: Value)
    ensures Renamed(PostData(parameters), parameters, Camelize)
    ensures SameShape(PostData(parameters), parameters)
  {
    RenameKeysKeepsShape(parameters, Camelize);
  }
}

=== FILE: verify.dfy ===
/** `verify(credit_card, options)`: an authorize step and then a void step run under
    `MultiResponse.run(:use_first_response)`, the void in `:ignore_result` mode. */
module Verify {
  import opened Base
  import opened Json
  import opened Requests
  import opened Gateway

  /** The probing amount used when the options carry no money. */
  const DefaultVerifyMoney: int := 100

  /** What `MultiResponse` does that the gateway does not show: whether a step runs after the
      primary response has failed, and whether a failure raised by the void step is swallowed
      or propagates. */
  datatype Policy = Policy(voidAfterFailedAuthorize: bool, swallowVoidFailure: bool)

  /** The combined response: every step response in order, and the primary one whose
      success, message, params and authorization the caller sees. */
  datatype MultiResponse = MultiResponse(responses: seq<Response>, primary: Response)

  /** `options[:money] ||= 100`. */
  function VerifyMoney(options: Options): (money: int)
    ensures options.money.Some? ==> money == options.money.value
    ensures options.money.None? ==> money == 100
  {
    options.money.GetOr(DefaultVerifyMoney)
  }

  /** The verify protocol over its two steps. A raised authorize ends the call with that
      failure; otherwise the void step receives the authorize response's params and the same
      amount, and the outcome is the authorize response whatever the void returns. */
  function Verify(
    card: CreditCard,
    options: Options,
    authorize: (int, CreditCard, Options) -> Result<Response, Failure>,
    void: (int, Value, Options) -> Result<Response, Failure>,
    policy: Policy): (r: Result<MultiResponse, Failure>)
    ensures var money := VerifyMoney(options);
            var options' := options.(money := Some(money));
            && (authorize(money, card, options').Err? ==> r == Err(authorize(money, card, options').error))
            && (r.Ok? ==> authorize(money, card, options') == Ok(r.value.primary))
            && (r.Ok? ==> 1 <= |r.value.responses| <= 2 && r.value.responses[0] == r.value.primary)
            && (r.Ok? && |r.value.responses| == 2 ==>
                  void(money, r.value.primary.params, options') == Ok(r.value.responses[1]))
    ensures var money := VerifyMoney(options);
            var options' := options.(money := Some(money));
            var a := authorize(money, card, options');
            (a.Ok? && (void(money, a.value.params, options').Ok? || policy.swallowVoidFailure ||
                       (!a.value.success && !policy.voidAfterFailedAuthorize)))
            ==> r.Ok? && r.value.primary == a.value
    ensures var money := VerifyMoney(options);
            var options' := options.(money := Some(money));
            var a := authorize(money, card, options');
            (a.Ok? && (a.value.success || policy.voidAfterFailedAuthorize) &&
             void(money, a.value.params, options').Ok?)
            ==> r == Ok(MultiResponse([a.value, void(money, a.value.params, options').value], a.value))
    ensures var money := VerifyMoney(options);
            var options' := options.(money := Some(money));
            var a := authorize(money, card, options');
            (a.Ok? && (a.value.success || policy.voidAfterFailedAuthorize) &&
             void(money, a.value.params, options').Err? && !policy.swallowVoidFailure)
            ==> r == Err(void(money, a.value.params, options').error)
  {
    var money := VerifyMoney(options);
    var options := options.(money := Some(money));
    match authorize(money, card, options)
    case Err(e) => Err(e)
    case Ok(first) =>
      if !first.success && !policy.voidAfterFailedAuthorize then
        Ok(MultiResponse([first], first))
      else
        match void(money, first.params, options)
        case Ok(second) => Ok(MultiResponse([first, second], first))
        case Err(e) => if policy.swallowVoidFailure then Ok(MultiResponse([first], first)) else Err(e)
  }

  /** The outcome never depends on what the void step returns: two void steps that both
      complete give outcomes with the same primary response. */
  lemma VerifyOutcomeIndependentOfVoid(
    card: CreditCard,
    options: Options,
    authorize: (int, CreditCard, Options) -> Result<Response, Failure>,
    void1: (int, Value, Options) -> Result<Response, Failure>,
    void2: (int, Value, Options) -> Result<Response, Failure>,
    policy: Policy)
    requires forall m, p, o :: void1(m, p, o).Ok? && void2(m, p, o).Ok?
    ensures (Verify(card, options, authorize, void1, policy).Ok? <==>
             Verify(card, options, authorize, void2, policy).Ok?)
    ensures Verify(card, options, authorize, void1, policy).Ok? ==>
              Verify(card, options, authorize, void1, policy).value.primary
                == Verify(card, options, authorize, void2, policy).value.primary
  {
  }

  /** A raised authorize skips the void step entirely: any void step gives the same result. */
  lemma VerifyAuthorizeFailureSkipsVoid(
    card: CreditCard,
    options: Options,
    authorize: (int, CreditCard, Options) -> Result<Response, Failure>,
    void1: (int, Value, Options) -> Result<Response, Failure>,
    void2: (int, Value, Options) -> Result<Response, Failure>,
    policy: Policy)
    requires authorize(VerifyMoney(options), card, options.(money := Some(VerifyMoney(options)))).Err?
    ensures Verify(card, options, authorize, void1, policy) == Verify(card, options, authorize, void2, policy)
  {
  }

  /** Under `MultiResponse`'s usual policy, an authorize step that never succeeds means the
      void step never runs and the outcome is a failure. */
  lemma FailedAuthorizeSkipsVoid(
    card: CreditCard,
    options: Options,
    authorize: (int, CreditCard, Options) -> Result<Response, Failure>,
    void: (int, Value, Options) -> Result<Response, Failure>)
    requires forall m, c, o :: authorize(m, c, o).Ok? ==> !authorize(m, c, o).value.success
    ensures var r := Verify(card, options, authorize, void, Policy(false, false));
            r.Ok? ==> |r.value.responses| == 1 && !r.value.primary.success
  {
  }

  /** The gateway's own `verify`: its `authorize` as the first step. With the source's empty
      extraction methods the authorize response is always a failure, so under the usual
      policy of not running further steps after a failure the void never runs and the
      outcome is that failed authorize response. */
  lemma StubbedVerifyNeverVoids(
    config: Config,
    env: Env,
    card: CreditCard,
    options: Options,
    void: (int, Value, Options) -> Result<Response, Failure>)
    requires IsStub(env.extract)
    ensures var r := Verify(card, options, (m, c, o) => Authorize(config, env, m, c, o), void,
                            Policy(false, false));
            r.Ok? ==> |r.value.responses| == 1 && !r.value.primary.success
  {
    var authorize := (m, c, o) => Authorize(config, env, m, c, o);
    forall m, c, o | authorize(m, c, o).Ok?
      ensures !authorize(m, c, o).value.success
    {
      StubbedCommitAlwaysFails(config, env, SalePath, SaleBody(m, c, o.currency, AuthOnly, env.amount));
    }
    FailedAuthorizeSkipsVoid(card, options, authorize, void);
  }

  /** The gateway's `void` as `verify` calls it. The step hands over the combined response's
      params, a Hash, and `void` asks that argument for `request_key`, a method a Hash does not
      define; the call raises before any request is built, whatever the params hold. */
  function VoidOnResponseParams(money: int, params: Value, options: Options): (r: Result<Response, Failure>)
    ensures r.Err? && r.error.UndefinedMethod? && r.error.name == "request_key"
  {
    Err(UndefinedMethod("request_key"))
  }

  /** `verify` with the gateway's own void step under `MultiResponse`'s usual policy: the call
      raises exactly when the authorize step raises or succeeds, and a declined authorize is
      the outcome on its own. */
  lemma VerifyWithGatewayVoid(
    card: CreditCard,
    options: Options,
    authorize: (int, CreditCard, Options) -> Result<Response, Failure>)
    ensures var money := VerifyMoney(options);
            var a := authorize(money, card, options.(money := Some(money)));
            var r := Verify(card, options, authorize, VoidOnResponseParams, Policy(false, false));
            && (r.Err? <==> a.Err? || a.value.success)
            && (a.Ok? && a.value.success ==> r == Err(UndefinedMethod("request_key")))
            && (a.Ok? && !a.value.success ==> r == Ok(MultiResponse([a.value], a.value)))
  {
  }
}
